=== FILE: README.md ===
# PlatformLevelTechempower HTTP core, modelled in Dafny

A model of the small HTTP/1.1 server in `PlatformLevelTechempower`: the
response writer of `Handler`, the per-connection request loop of
`HttpConnectionContext`, the benchmark routes of `BenchmarkHandler`, and the
command-line parser `Args.Parse`. Bytes are `seq<byte>`, with `byte` an integer
newtype from 0 to 255; every writer is a pure
function from the output buffer to a longer output buffer.

Modules, one concern each:

- `Wrappers` (`wrappers.dfy`): `Option` and `Result`.
- `Bytes` (`bytes.dfy`): bytes, `Encoding.ASCII` (characters above 127 become `?`), CR LF search, append-only prefix relation.
- `Decimal` (`decimal.dfy`): `Int32.ToString` for lengths and the digit reader a client applies to `Content-Length`.
- `Message` (`message.dfy`): the response layout on the wire and `ParseResponse`, the client-side reader of one response off a keep-alive byte stream. This is the writer's partner: every response written reads back exactly.
- `Response` (`response.dfy`): `HttpStatus`, `MediaType`, the header constants and `Ok`, `Json`, `NotFound`, `BadRequest`, `WriteHeader`, `WriteResponse`, `WriteStartLine`, `WriteCommonHeaders`.
- `Request` (`request.dfy`): Kestrel's method enumeration and the fields handed to a handler.
- `Benchmark` (`benchmark.dfy`): `PathMatch` and `BenchmarkHandler.ProcessAsync`.
- `Connection` (`connection.dfy`): the states `StartLine`, `Headers` and `Body`; `OnStartLine`, `OnHeader`, `ParseHttpRequest`; one iteration of the `ExecuteAsync` loop; and the loop itself. Each read returns the bytes the previous iteration left unconsumed, followed by whatever arrived since, as the pipe does after `Advance(consumed, examined)`. Each arrival also carries the Date bytes the date cache holds while that read is handled. Kestrel's `HttpParser` is an oracle (`Parser`). For the bytes it is given, it reports a parsed start line or header block with the unconsumed rest, that more input is needed, or malformed input (it throws).
- `Server` (`server.dfy`): the loop with the benchmark handler plugged in. What a pipelining client reads back from one connection.
- `CommandLine` (`commandline.dfy`): `Args`, its defaults, `bool.TryParse`, `int.TryParse` and the `Args.Parse` loop, with a functional reference definition `ParseFrom`.

The Date bytes come from Kestrel's date cache, which is not part of this model. Writers take them as a parameter `date`, and the connection loop passes each response the value current at its read. Where a contract describes the header lines, it assumes the bytes have the cache's shape: CR LF, then `Date: `, then a date free of CR (`Response.DateValue`). This is why `Server: Custom` is written without its own CR LF (HttpServer.cs:342-346).

Behaviour as the code has it, followed by the model where a reader might expect otherwise:

- The keep-alive test compares the header name `Connection` and the value `keep-alive` byte for byte: `connection: keep-alive` does not count (HttpServer.cs:199).
- `_keepAlive` is never cleared. One keep-alive request makes every later response on the connection carry `Connection: keep-alive`. The loop never closes a connection because keep-alive is absent; it closes only at end of input or on a parser exception.
- An empty buffer on a completed read ends the loop cleanly in any state, also in the middle of a request whose earlier bytes were consumed (HttpServer.cs:125-128).
- The query is copied from the query span (HttpServer.cs:194), as intended.

## Model

| member | source | states |
|---|---|---|
| Decimal.ParseFormat | PlatformLevelTechempower/HttpServer.cs:276 | the decimal text written for a body length reads back as exactly that length |
| Message.ParseSerialize | PlatformLevelTechempower/HttpServer.cs:312-317 | a response of `name: value` CR LF header lines, an empty line and a body of the declared Content-Length reads back whole, and the bytes after it are left untouched |
| Response.StatusValues | PlatformLevelTechempower/HttpServer.cs:356-371 | the three statuses write `200 OK`, `400 BAD REQUEST` and `404 NOT FOUND` |
| Response.WriteHeader | PlatformLevelTechempower/HttpServer.cs:312-317 | appends exactly name, value, CR LF; the earlier output is unchanged |
| Response.WriteStartLine | PlatformLevelTechempower/HttpServer.cs:332-337 | appends `HTTP/1.1 `, the status text and CR LF; the earlier output is unchanged |
| Response.WriteCommonHeaders | PlatformLevelTechempower/HttpServer.cs:339-353 | only appends; with cache-shaped date bytes the appended bytes are the header lines Server, Date and, when keep-alive is set, Connection |
| Response.KeepAliveLine | PlatformLevelTechempower/HttpServer.cs:348-352 | the `Connection: keep-alive` line is among the common headers if and only if keepAlive holds; Server and Date come first |
| Response.Ok | PlatformLevelTechempower/HttpServer.cs:269-282 | returns status 200 and only appends; the response is status line, common headers, Content-Type, Content-Length of the body's length, empty line, body |
| Response.OkContentLength | PlatformLevelTechempower/HttpServer.cs:276 | the Content-Length header `Ok` writes declares exactly the body's length |
| Response.OkRoundTrip | PlatformLevelTechempower/HttpServer.cs:269-282 | a client reads back status `200 OK` and exactly the body bytes, and the next response's bytes are left intact |
| Response.Json | PlatformLevelTechempower/HttpServer.cs:284-300 | writes exactly what `Ok` writes for the serializer's output with media type application/json |
| Response.JsonRoundTrip | PlatformLevelTechempower/HttpServer.cs:292-297 | the declared length is that of the serialized value, and a client reads exactly those bytes as the body |
| Response.WriteResponse | PlatformLevelTechempower/HttpServer.cs:319-330 | returns the status it writes and only appends; the response is status line, common headers, `Content-Length: 0`, empty line, no body |
| Response.NotFound | PlatformLevelTechempower/HttpServer.cs:302-305 | returns 404 and writes the body-less 404 response |
| Response.BadRequest | PlatformLevelTechempower/HttpServer.cs:307-310 | returns 400 and writes the body-less 400 response |
| Response.EmptyContentLength | PlatformLevelTechempower/HttpServer.cs:325 | the body-less responses declare Content-Length 0 |
| Response.EmptyRoundTrip | PlatformLevelTechempower/HttpServer.cs:319-330 | a client reads back the written status with an empty body and the following bytes intact |
| Benchmark.PathMatch | PlatformLevelTechempower/HttpServer.cs:262-267 | the byte-wise comparison holds exactly when path and target are equal |
| Benchmark.Select | PlatformLevelTechempower/BenchmarkHandler.cs:18-37 | plaintext if and only if GET `/plaintext`, JSON if and only if GET `/json`, 404 for every other method or path |
| Benchmark.Process | PlatformLevelTechempower/BenchmarkHandler.cs:18-37 | only appends; status 200 exactly for GET `/plaintext` or `/json`, 404 otherwise |
| Benchmark.ProcessRoundTrip | PlatformLevelTechempower/BenchmarkHandler.cs:18-37 | every request gets exactly one response: what is written reads back as the one response of its route and nothing more |
| Benchmark.PlaintextResponse | PlatformLevelTechempower/BenchmarkHandler.cs:20-26 | GET `/plaintext` answers `200 OK`, text/plain, body `Hello, World!`, Content-Length 13 |
| Benchmark.ExactMatching | PlatformLevelTechempower/BenchmarkHandler.cs:20-35 | `/Plaintext`, `/plaintext?x`, and non-GET methods on a known path all get 404 |
| Connection.OnStartLine | PlatformLevelTechempower/HttpServer.cs:190-195 | keeps method, path and query from the start line and changes nothing else |
| Connection.OnHeader | PlatformLevelTechempower/HttpServer.cs:197-205 | keep-alive becomes set if and only if it was set or the header is exactly `Connection: keep-alive`; the header is forwarded to the handler; nothing resets keep-alive |
| Connection.OnHeaders | PlatformLevelTechempower/HttpServer.cs:197-205 | over all reported headers: keep-alive is set if and only if it was set or some header is exactly `Connection: keep-alive`; all headers are forwarded in order |
| Connection.KeepAliveCaseSensitive | PlatformLevelTechempower/HttpServer.cs:199-202 | `connection: keep-alive` and `Connection: Keep-Alive` do not set keep-alive |
| Connection.ParseHttpRequest | PlatformLevelTechempower/HttpServer.cs:167-188 | the state only moves forward; StartLine is left if and only if the start line parsed; Body is reached if and only if the header block parsed; keep-alive only reflects reported headers |
| Connection.StartLineToBody | PlatformLevelTechempower/HttpServer.cs:172-187 | both moves can happen in one call, carrying the start line's fields and the headers' keep-alive |
| Connection.Step | PlatformLevelTechempower/HttpServer.cs:125-147 | empty completed input closes with `EndOfInput` (the clean break); a parser exception closes with `Aborted` (the input completed with the error); a completed input not in Body after parsing closes with `Truncated` (the bad-request break) without calling the handler; the bytes left for the next read are exactly those the parse did not consume; the handler runs if and only if the parse reaches Body on input that is not empty and completed, after which the state is StartLine; an iteration that does not dispatch keeps the parsed connection fields; keep-alive is never cleared |
| Connection.Loop | PlatformLevelTechempower/HttpServer.cs:116-153 | the loop from a given read on: each served request records the read that completed it, a later read than its predecessor's (at most one request per read, in read order), and carries that read's Date bytes; a read whose iteration dispatches serves its request first; a read whose iteration closes serves nothing and ends the loop with that exit; the flushed bytes are the handler's responses in the order served; if the loop starts outside Body its final state is outside Body; keep-alive is never cleared |
| Connection.LoopDispatches | PlatformLevelTechempower/HttpServer.cs:137-151 | a read that completes a request serves it first, writes its response first, and the loop resumes at the next read from the fields the iteration left (StartLine) and the bytes the parse did not consume |
| Connection.LoopAdvances | PlatformLevelTechempower/HttpServer.cs:130-151 | a read that only advances the parse (a request split across reads) serves nothing, and the loop resumes at the next read from the parsed fields and the unconsumed bytes |
| Connection.LoopCloses | PlatformLevelTechempower/HttpServer.cs:125-135 | a read whose iteration closes ends the loop with that exit, serving nothing, and later reads are never taken |
| Connection.LoopSplit | PlatformLevelTechempower/HttpServer.cs:116-153 | for every split point: the loop over all reads is the loop over the reads before the split followed, unless that part closed, by the loop over the rest resumed from the connection fields and unconsumed bytes it left (so each read after the first sees the previous remainder first and, from StartLine, starts outside Body); a part that closed is the whole loop |
| Connection.Run | PlatformLevelTechempower/HttpServer.cs:116-153 | the whole loop: at most one request served per read, in the order of the reads, each written with the Date bytes of the read that completed it; the first read is tied to its iteration (a dispatch serves first, a close serves nothing and sets the exit); the flushed bytes are the handler's responses in the order served; if the loop starts outside Body its final state is outside Body; keep-alive is never cleared |
| Connection.RunAppend | PlatformLevelTechempower/HttpServer.cs:116-153 | the loop over the reads of `a` then `b` is the loop over `a` followed, unless it closed, by the reads of `b` resumed from the fields and unconsumed bytes `a` left; with the one-iteration lemmas this ties every read, not only the first, to its iteration |
| Connection.TwoRequestsInOneChunk | PlatformLevelTechempower/HttpServer.cs:125-151 | two requests in one chunk get two responses: the second is parsed from the bytes the first left in the pipe, also when the peer finishes right after the chunk, and then the loop ends cleanly |
| Server.ResponsesReadBack | PlatformLevelTechempower/HttpServer.cs:138-147 | consecutive benchmark responses read back one per request, in order, each with the Date value it was written with |
| Server.PipelinedResponses | PlatformLevelTechempower/HttpServer.cs:138-147 | with the benchmark handler and a date cache of the usual shape, everything the connection flushes reads back as one response per served request, in order, each carrying the Date current at its read (HttpServer.cs:345) |
| CommandLine.Defaults | PlatformLevelTechempower/Args.cs:12-16 | raw is false, port is 8081, thread count is the processor count |
| CommandLine.NoArguments | PlatformLevelTechempower/Args.cs:21-23 | no arguments give the defaults |
| CommandLine.FlagOf | PlatformLevelTechempower/Args.cs:20-46 | an argument names a flag if and only if it equals `--Raw`, `--Port` or `--ThreadCount` ignoring case |
| CommandLine.FlagNamesIgnoreCase | PlatformLevelTechempower/Args.cs:26 | `--raw`, `--PORT`, `--threadcount` and the like are recognised; `-port` and `port` are not |
| CommandLine.TryParseBool | PlatformLevelTechempower/Args.cs:29 | parses to true if and only if the text is `True` in any case, to false if and only if it is `False` in any case |
| CommandLine.TryParseInt | PlatformLevelTechempower/Args.cs:39 | a parsed value lies within the 32-bit range |
| CommandLine.TryParseIntIff | PlatformLevelTechempower/Args.cs:39 | a text parses to `n` if and only if `n` is a 32-bit value and the text is its decimal digits behind any number of zeros, with an optional `+`, or a `-` when `n` is not positive; every other text is rejected |
| CommandLine.TryParseIntExamples | PlatformLevelTechempower/Args.cs:39 | `+5`, `007`, `-0` and `-12` parse to 5, 7, 0 and -12; `abc`, `5x`, `--5`, `+` and the empty text are rejected |
| CommandLine.TryParseFormat | PlatformLevelTechempower/Args.cs:49 | every 32-bit integer written in decimal parses back to itself |
| CommandLine.Apply | PlatformLevelTechempower/Args.cs:28-53 | a value that parses is stored in its flag's field; one that does not leaves the field as it was; other fields never change |
| CommandLine.ParseFrom | PlatformLevelTechempower/Args.cs:23-56 | the only failure is a read one past the end, and only when the last argument is a flag |
| CommandLine.Parse | PlatformLevelTechempower/Args.cs:18-59 | the loop returns what the reference definition gives, including the out-of-range failure |
| CommandLine.ParseExtends | PlatformLevelTechempower/Args.cs:23-56 | parsing more arguments resumes from the result of the prefix |
| CommandLine.UnknownSkipped | PlatformLevelTechempower/Args.cs:23-56 | an argument that names no flag has no effect |
| CommandLine.FlagTakesNext | PlatformLevelTechempower/Args.cs:28-34 | a flag consumes the next argument as its value, whatever it is; the last valid value wins |
| CommandLine.DanglingFlag | PlatformLevelTechempower/Args.cs:28 | a flag in the last position fails with an index one past the end |
| CommandLine.ValueIsNotAFlag | PlatformLevelTechempower/Args.cs:36-44 | in `--port --raw true`, `--raw` is the port's value and is not read as a flag |

## Left out

- Transport and hosting: `HttpServer.RunAsync`, `OnConnection`, `IPEndPointInformation`, the empty `Abort` and `OnConnectionClosed`, and `Program.cs`. These are libuv binding, console and cancel-key plumbing.
- Pipes and async: `ReadAsync`, `Advance`, `Complete` and `FlushAsync` are effects outside the model. The transport is a sequence of arrivals, each with new bytes and a completion flag.
- Connection.Run: the examined cursor is not modelled. An arrival without new bytes may follow any iteration, so the parser can see the same bytes twice. The pipe returns such a read without waiting only when the parse stopped before the end of the buffer. The model therefore admits some traces the source does not produce, and none that it does produce are missing.
- Exceptions other than the parser's: a handler or transport exception ending the loop (HttpServer.cs:157-164) is not modelled.
- Kestrel's `HttpParser` is not part of this model; it is the `Parser` oracle.
- `DateHeaderValueManager` is not part of this model. Its bytes are the `date` of each arrival, and the unused `_headerDate` constant is dropped.
- `Utf8Json.JsonSerializer` is not part of this model; it is the `serialize` parameter.
- `Environment.ProcessorCount` is the `processorCount` parameter.
- `BenchmarkHandler` is written against a `HandlerContext` API, while `Handler.ProcessAsync` takes method, path, query, keep-alive and the output buffer. The handler is modelled as a function of those request fields returning the bytes it writes.
- `Handler.OnHeader` is empty in the base class. The connection records every forwarded header in `observed` instead.
- Response.Ok: the header-line layout is stated only for date bytes of the cache's shape (CR LF, `Date: `, a date without CR), because the writer does not control those bytes.
- Response.WriteCommonHeaders: same restriction to cache-shaped date bytes.
- Response.WriteResponse: same restriction to cache-shaped date bytes.
- CommandLine.TryParseInt: leading and trailing white space and culture-specific sign symbols, which `int.TryParse` accepts, are not modelled.
- CommandLine.TryParseBool: the white space and trailing NUL trimming of `bool.TryParse` is not modelled.
- CommandLine.FlagOf: the case-insensitive comparison folds ASCII letters only. Ordinal ignore-case also folds other letters, and no such letter can make one of the three ASCII flag names match.
- Body lengths are unbounded naturals. .NET arrays are shorter than 2^31 bytes, so `Length.ToString()` never sees a wrapped value.

=== FILE: benchmark.dfy ===
/** The benchmark handler: routes a request to the plaintext response, the
    JSON response, or 404. */
module Benchmark {

  import opened Bytes
  import opened Wrappers
  import opened Request
  import opened Message
  import opened Response

  const PlainTextBody: bytes := Ascii("Hello, World!")
  const PlaintextPath: bytes := Ascii("/plaintext")
  const JsonPath: bytes := Ascii("/json")

  /** The anonymous object `{ message = "Hello, World!" }` given to the JSON serializer. */
  datatype JsonMessage = JsonMessage(message: string)

  const Hello: JsonMessage := JsonMessage("Hello, World!")

  /** Which of the three terminal writer operations a request gets. */
  datatype Route = Plaintext | JsonHello | Missing

  /** Byte-wise comparison of the request path with a route's path. */
  function PathMatch(path: bytes, target: bytes): (r: bool)
    ensures r <==> path == target
  {
    |path| == |target| && forall i | 0 <= i < |path| :: path[i] == target[i]
  }

  function Select(httpMethod: HttpMethod, path: bytes): (r: Route)
    ensures r == Plaintext <==> httpMethod == Get && path == PlaintextPath
    ensures r == JsonHello <==> httpMethod == Get && path == JsonPath
    ensures r == Missing <==> httpMethod != Get || (path != PlaintextPath && path != JsonPath)
  {
    if httpMethod == Get then
      if PathMatch(path, PlaintextPath) then Plaintext
      else if PathMatch(path, JsonPath) then JsonHello
      else Missing
    else
      Missing
  }

  /** Handles one request by appending its response to `output`. */
  function Process(httpMethod: HttpMethod, path: bytes, keepAlive: bool, output: bytes, date: bytes,
                   serialize: JsonMessage -> bytes): (w: Written)
    ensures Extends(output, w.output)
    ensures w.status == HttpStatus.Ok <==> httpMethod == Get && (path == PlaintextPath || path == JsonPath)
    ensures w.status == HttpStatus.NotFound <==> httpMethod != Get || (path != PlaintextPath && path != JsonPath)
  {
    match Select(httpMethod, path)
    case Plaintext => Response.Ok(output, keepAlive, PlainTextBody, TextPlain, date)
    case JsonHello => Json(output, keepAlive, Hello, serialize, date)
    case Missing => Response.NotFound(output, keepAlive, date)
  }

  /** The response a client should read back for a route. */
  function Expected(route: Route, keepAlive: bool, dateValue: bytes, serialize: JsonMessage -> bytes): Message {
    match route
    case Plaintext => OkMessage(keepAlive, dateValue, PlainTextBody, TextPlain)
    case JsonHello => OkMessage(keepAlive, dateValue, serialize(Hello), ApplicationJson)
    case Missing => EmptyMessage(HttpStatus.NotFound, keepAlive, dateValue)
  }

  /** Every request gets exactly one response: what `Process` appends reads
      back as the single response of its route, and nothing of the following
      bytes is taken. */
  lemma ProcessRoundTrip(httpMethod: HttpMethod, path: bytes, keepAlive: bool, output: bytes, date: bytes,
                         serialize: JsonMessage -> bytes, next: bytes)
    requires DateValue(date).Some?
    ensures var m := Expected(Select(httpMethod, path), keepAlive, DateValue(date).value, serialize);
      ParseResponse(Process(httpMethod, path, keepAlive, output, date, serialize).output[|output|..] + next) == Some((m, next))
  {
    match Select(httpMethod, path)
    case Plaintext => OkRoundTrip(output, keepAlive, PlainTextBody, TextPlain, date, next);
    case JsonHello => JsonRoundTrip(output, keepAlive, Hello, serialize, date, next);
    case Missing => EmptyRoundTrip(output, keepAlive, HttpStatus.NotFound, date, next);
  }

  /** GET /plaintext is answered 200 with `Hello, World!` as text/plain. */
  lemma PlaintextResponse(keepAlive: bool, dateValue: bytes, serialize: JsonMessage -> bytes)
    ensures var m := Expected(Select(Get, PlaintextPath), keepAlive, dateValue, serialize);
      && m.status == Ascii("200 OK")
      && m.body == Ascii("Hello, World!")
      && Header(Ascii("Content-Type"), Ascii("text/plain")) in m.headers
      && ContentLength(m.headers) == Some(13)
  {
    var m := Expected(Select(Get, PlaintextPath), keepAlive, dateValue, serialize);
    OkValue();
    assert m.headers[|m.headers| - 2] == Header(Ascii("Content-Type"), Ascii("text/plain"));
    OkContentLength(keepAlive, dateValue, PlainTextBody, TextPlain);
  }

  /** Matching is exact: case, query strings and the method all count. */
  lemma ExactMatching()
    ensures Select(Get, Ascii("/Plaintext")) == Missing
    ensures Select(Get, Ascii("/plaintext?x")) == Missing
    ensures Select(Post, PlaintextPath) == Missing
    ensures Select(Head, JsonPath) == Missing
  {
    assert Ascii("/Plaintext")[1] != PlaintextPath[1];
  }
}

=== FILE: bytes.dfy ===
/** Bytes as written to and read from the connection's pipes, and the ASCII
    encoding the server uses for every constant it writes. */
module Bytes {

  import opened Wrappers

  newtype byte = x: int | 0 <= x < 256
  type bytes = seq<byte>

  const CR: byte := 0x0D
  const LF: byte := 0x0A
  const Colon: byte := 0x3A
  const Space: byte := 0x20
  const QuestionMark: byte := 0x3F

  /** The line terminator of HTTP/1.1. */
  const CRLF: bytes := [CR, LF]

  /** One character as ASCII encodes it: characters outside 7-bit ASCII
      become the replacement byte '?'. */
  function AsciiByte(c: char): (b: byte)
    ensures c as int < 128 ==> b as int == c as int
    ensures c as int >= 128 ==> b == QuestionMark
  {
    if c as int < 128 then (c as int) as byte else QuestionMark
  }

  /** A string as ASCII encodes it, one byte per character. */
  function Ascii(s: string): (r: bytes)
    ensures |r| == |s|
    ensures forall i | 0 <= i < |s| :: r[i] == AsciiByte(s[i])
  {
    seq(|s|, i requires 0 <= i < |s| => AsciiByte(s[i]))
  }

  lemma AsciiConcat(a: string, b: string)
    ensures Ascii(a + b) == Ascii(a) + Ascii(b)
  {
  }

  /** `r` is `s` followed by zero or more further bytes: what a writer that
      only appends leaves behind. */
  predicate Extends<T(==)>(s: seq<T>, r: seq<T>) {
    |s| <= |r| && r[..|s|] == s
  }

  lemma ExtendsTransitive<T>(a: seq<T>, b: seq<T>, c: seq<T>)
    requires Extends(a, b) && Extends(b, c)
    ensures Extends(a, c)
  {
    assert c[..|a|] == c[..|b|][..|a|];
  }

  /** No byte of `s` is `b`. */
  predicate Excludes(s: bytes, b: byte) {
    forall i | 0 <= i < |s| :: s[i] != b
  }

  /** A CR LF pair starts at position `i` of `s`. */
  predicate CrlfAt(s: bytes, i: int) {
    0 <= i && i + 1 < |s| && s[i] == CR && s[i + 1] == LF
  }

  /** Position of the first CR LF pair in `s`, if any. */
  function FirstCrlf(s: bytes): (r: Option<nat>)
    ensures r.Some? ==> CrlfAt(s, r.value)
    ensures r.Some? ==> forall j | 0 <= j < r.value :: !CrlfAt(s, j)
    ensures r.None? ==> forall j | 0 <= j < |s| :: !CrlfAt(s, j)
  {
    if |s| < 2 then None
    else if s[0] == CR && s[1] == LF then Some(0)
    else match FirstCrlf(s[1..])
      case None => (assert forall j | 1 <= j < |s| :: CrlfAt(s, j) == CrlfAt(s[1..], j - 1); None)
      case Some(k) => (assert forall j | 1 <= j < |s| :: CrlfAt(s, j) == CrlfAt(s[1..], j - 1); Some(k + 1))
  }

  /** Position of the first occurrence of `b` in `s`, if any. */
  function FirstIndexOf(s: bytes, b: byte): (r: Option<nat>)
    ensures r.Some? ==> r.value < |s| && s[r.value] == b && Excludes(s[..r.value], b)
    ensures r.None? ==> Excludes(s, b)
  {
    if |s| == 0 then None
    else if s[0] == b then Some(0)
    else match FirstIndexOf(s[1..], b)
      case None => None
      case Some(k) => (assert s[..k + 1] == [s[0]] + s[1..][..k]; Some(k + 1))
  }

  /** A line free of CR is found whole by the CR LF search. */
  lemma {:induction false} FirstCrlfAfterLine(line: bytes, rest: bytes)
    requires Excludes(line, CR)
    ensures FirstCrlf(line + CRLF + rest) == Some(|line|)
  {
    var s := line + CRLF + rest;
    assert CrlfAt(s, |line|);
    forall j | 0 <= j < |line|
      ensures !CrlfAt(s, j)
    {
      assert s[j] == line[j];
    }
  }

  /** A prefix free of `b` is skipped whole by the search for `b`. */
  lemma {:induction false} FirstIndexAfterPrefix(prefix: bytes, b: byte, rest: bytes)
    requires Excludes(prefix, b)
    ensures FirstIndexOf(prefix + [b] + rest, b) == Some(|prefix|)
  {
    var s := prefix + [b] + rest;
    assert s[|prefix|] == b;
    assert forall k | 0 <= k < |prefix| :: s[k] == prefix[k];
    assert forall k | |prefix| < k <= |s| :: s[..k][|prefix|] == b;
  }
}

=== FILE: commandline.dfy ===
/** `Args.Parse`: the process's command-line flags. */
module CommandLine {

  import opened Wrappers
  import opened Bytes
  import Decimal

  datatype Args = Args(raw: bool, port: int, threadCount: int)

  const DefaultPort: int := 8081

  /** The property initializers; the processor count comes from the host. */
  function Defaults(processorCount: int): (a: Args)
    ensures !a.raw && a.port == DefaultPort && a.threadCount == processorCount
  {
    Args(false, DefaultPort, processorCount)
  }

  datatype Flag = Raw | Port | ThreadCount

  /** Reading past the end of the argument array. */
  datatype ArgsError = IndexOutOfRange(index: nat)

  /** `--` followed by the property's name. */
  function FlagName(f: Flag): string {
    match f
    case Raw => "--Raw"
    case Port => "--Port"
    case ThreadCount => "--ThreadCount"
  }

  /** Upper-case mapping of the ordinal case-insensitive comparison, on ASCII letters. */
  function ToUpper(c: char): (u: char)
    ensures 'a' <= c <= 'z' ==> u as int == c as int - 32
    ensures !('a' <= c <= 'z') ==> u == c
  {
    if 'a' <= c <= 'z' then (c as int - 32) as char else c
  }

  predicate EqualsIgnoreCase(a: string, b: string) {
    |a| == |b| && forall i | 0 <= i < |a| :: ToUpper(a[i]) == ToUpper(b[i])
  }

  /** The flag an argument names, if any; names are matched ignoring case. */
  function FlagOf(arg: string): (r: Option<Flag>)
    ensures forall f: Flag :: r == Some(f) <==> EqualsIgnoreCase(FlagName(f), arg)
  {
    if EqualsIgnoreCase(FlagName(Raw), arg) then Some(Raw)
    else if EqualsIgnoreCase(FlagName(Port), arg) then Some(Port)
    else if EqualsIgnoreCase(FlagName(ThreadCount), arg) then Some(ThreadCount)
    else None
  }

  const MinInt32: int := -0x8000_0000
  const MaxInt32: int := 0x7FFF_FFFF

  /** `bool.TryParse`: `True` or `False` in any case. */
  function TryParseBool(s: string): (r: Option<bool>)
    ensures r == Some(true) <==> EqualsIgnoreCase("True", s)
    ensures r == Some(false) <==> EqualsIgnoreCase("False", s)
  {
    if EqualsIgnoreCase("True", s) then Some(true)
    else if EqualsIgnoreCase("False", s) then Some(false)
    else None
  }

  /** `int.TryParse`: an optional sign, then decimal digits, within 32 bits. */
  function TryParseInt(s: string): (r: Option<int>)
    ensures r.Some? ==> MinInt32 <= r.value <= MaxInt32
  {
    if 0 < |s| && s[0] == '-' then
      var n :- Decimal.ParseNat(Ascii(s[1..]));
      var negated: int := 0 - (n as int);
      if MinInt32 <= negated then Some(negated) else None
    else
      var digits := if 0 < |s| && s[0] == '+' then s[1..] else s;
      var n :- Decimal.ParseNat(Ascii(digits));
      if n <= MaxInt32 then Some(n) else None
  }

  /** Digit bytes as the characters they encode. */
  function DigitChars(digits: bytes): (text: string)
    requires Decimal.AllDigits(digits)
    ensures |text| == |digits|
    ensures forall i | 0 <= i < |text| :: '0' <= text[i] <= '9'
    ensures Ascii(text) == digits
  {
    seq(|digits|, i requires 0 <= i < |digits| => (digits[i] as int) as char)
  }

  /** `Int32.ToString` of the invariant culture: a minus sign for negative
      values, then the decimal digits. */
  function FormatInt(n: int): string {
    (if n < 0 then "-" else "") + DigitChars(Decimal.Format(if n < 0 then -n else n))
  }

  /** Every 32-bit integer, written out in decimal, parses back to itself. */
  lemma TryParseFormat(n: int)
    requires MinInt32 <= n <= MaxInt32
    ensures TryParseInt(FormatInt(n)) == Some(n)
  {
    if n < 0 {
      TryParseNegative(n);
    } else {
      TryParseNonNegative(n);
    }
  }

  lemma TryParseNegative(n: int)
    requires MinInt32 <= n < 0
    ensures TryParseInt(FormatInt(n)) == Some(n)
  {
    var text := DigitChars(Decimal.Format(-n));
    assert FormatInt(n) == "-" + text;
    assert Decimal.ParseNat(Ascii(text)) == Some(-n) by {
      Decimal.ParseFormat(-n);
    }
    TryParseMinus("-" + text, text, -n);
  }

  /** A minus sign and digits of a value within range parse to its negation. */
  lemma TryParseMinus(s: string, text: string, m: nat)
    requires s == "-" + text
    requires Decimal.ParseNat(Ascii(text)) == Some(m)
    requires m <= -MinInt32
    ensures TryParseInt(s) == Some(0 - m)
  {
    assert s[1..] == text;
  }

  lemma TryParseNonNegative(n: int)
    requires 0 <= n <= MaxInt32
    ensures TryParseInt(FormatInt(n)) == Some(n)
  {
    var text := DigitChars(Decimal.Format(n));
    assert FormatInt(n) == text;
    assert Decimal.ParseNat(Ascii(text)) == Some(n) by {
      Decimal.ParseFormat(n);
    }
    TryParseUnsigned(text, n);
  }

  /** Digits of a value within range, with no sign, parse to that value. */
  lemma TryParseUnsigned(text: string, m: nat)
    requires 0 < |text| && '0' <= text[0] <= '9'
    requires Decimal.ParseNat(Ascii(text)) == Some(m)
    requires m <= MaxInt32
    ensures TryParseInt(text) == Some(m)
  {
  }

  /** `k` zero characters. */
  function ZeroChars(k: nat): (r: string)
    ensures |r| == k
    ensures forall i | 0 <= i < k :: r[i] == '0'
  {
    seq(k, _ => '0')
  }

  /** The shortest decimal text of a natural number. */
  function DigitText(n: nat): (r: string)
    ensures 0 < |r| && '0' <= r[0] <= '9'
    ensures Ascii(r) == Decimal.Format(n)
  {
    DigitChars(Decimal.Format(n))
  }

  /** A sign, `k` zeros, then the shortest decimal text of `m`. */
  function Spelling(sign: string, k: nat, m: nat): string {
    sign + (ZeroChars(k) + DigitText(m))
  }

  /** The texts `int.TryParse` reads as `n`, white space aside: an optional
      `+` (a `-` for a value that is not positive), any number of zeros,
      then the shortest decimal text of the magnitude. */
  ghost predicate Spells(s: string, n: int) {
    exists k: nat :: SpellsWith(s, n, k)
  }

  /** `t` is some zeros followed by the shortest decimal text of `m`. */
  ghost predicate PaddedDigits(t: string, m: nat) {
    exists k: nat :: t == ZeroChars(k) + DigitText(m)
  }

  /** `s` spells `n` with `k` leading zeros. */
  predicate SpellsWith(s: string, n: int, k: nat) {
    || (0 <= n && (s == Spelling("", k, n) || s == Spelling("+", k, n)))
    || (n <= 0 && s == Spelling("-", k, -n))
  }

  lemma SpellingParts(sign: string, k: nat, m: nat)
    ensures Spelling(sign, k, m)[|sign|..] == ZeroChars(k) + DigitText(m)
    ensures |sign| < |Spelling(sign, k, m)|
    ensures 0 < |sign| ==> Spelling(sign, k, m)[0] == sign[0]
    ensures |sign| == 0 ==> '0' <= Spelling(sign, k, m)[0] <= '9'
  {
    StartsWithDigit(k, m);
  }

  /** Exactly the spellings of an in-range value parse, and to that value:
      `+5`, `007` and `-0` are accepted; `abc`, `5x`, `--5`, `+` and the
      empty text are not. */
  lemma TryParseIntIff(s: string, n: int)
    ensures TryParseInt(s) == Some(n) <==> MinInt32 <= n <= MaxInt32 && Spells(s, n)
  {
    if 0 < |s| && s[0] == '-' {
      TryParseIntMinus(s, n);
    } else if 0 < |s| && s[0] == '+' {
      TryParseIntPlus(s, n);
    } else {
      TryParseIntBare(s, n);
    }
  }

  /** Sign, leading zeros and stray characters, on small inputs. */
  lemma TryParseIntExamples()
    ensures TryParseInt("+5") == Some(5)
    ensures TryParseInt("007") == Some(7)
    ensures TryParseInt("-0") == Some(0)
    ensures TryParseInt("-12") == Some(-12)
    ensures TryParseInt("abc").None? && TryParseInt("5x").None? && TryParseInt("--5").None?
    ensures TryParseInt("+").None? && TryParseInt("").None?
  {
    PlusFive();
    ZerosSeven();
    MinusExamples();
    Rejected();
  }

  lemma MinusExamples()
    ensures TryParseInt("-0") == Some(0)
    ensures TryParseInt("-12") == Some(-12)
  {
  }

  lemma Rejected()
    ensures TryParseInt("abc").None? && TryParseInt("5x").None? && TryParseInt("--5").None?
    ensures TryParseInt("+").None? && TryParseInt("").None?
  {
  }

  lemma PlusFive()
    ensures TryParseInt("+5") == Some(5)
  {
    assert "+5"[1..] == "5";
    assert Ascii("5") == [0x35];
    assert Decimal.Value([0x35]) == Decimal.Value([]) * 10 + 5;
  }

  lemma ZerosSeven()
    ensures TryParseInt("007") == Some(7)
  {
    var b: bytes := [0x30, 0x30, 0x37];
    assert Ascii("007") == b;
    assert b[..2] == [0x30, 0x30] && [0x30, 0x30][..1] == [0x30];
    assert Decimal.Value([0x30]) == 0;
    assert Decimal.Value([0x30, 0x30]) == 0;
    assert Decimal.Value(b) == 7;
  }

  lemma TryParseIntMinus(s: string, n: int)
    requires 0 < |s| && s[0] == '-'
    ensures TryParseInt(s) == Some(n) <==> MinInt32 <= n <= MaxInt32 && Spells(s, n)
  {
    MinusValue(s, n);
    SpellsMinus(s, n);
    if n <= 0 {
      DigitsIff(s[1..], -n);
    }
    Glue(TryParseInt(s) == Some(n), Spells(s, n), MinInt32 <= n <= MaxInt32, n <= 0,
         Decimal.ParseNat(Ascii(s[1..])) == Some(-n), n <= 0 && PaddedDigits(s[1..], -n));
  }

  /** The propositional step shared by the three cases of `TryParseIntIff`. */
  lemma Glue(parses: bool, spells: bool, inRange: bool, signOk: bool, digitsParse: bool, padded: bool)
    requires parses <==> inRange && signOk && digitsParse
    requires spells <==> signOk && padded
    requires signOk ==> (digitsParse <==> padded)
    ensures parses <==> inRange && spells
  {
  }

  lemma MinusValue(s: string, n: int)
    requires 0 < |s| && s[0] == '-'
    ensures TryParseInt(s) == Some(n) <==> MinInt32 <= n <= MaxInt32 && n <= 0 && Decimal.ParseNat(Ascii(s[1..])) == Some(-n)
  {
  }

  lemma SpellsMinus(s: string, n: int)
    requires 0 < |s| && s[0] == '-'
    ensures Spells(s, n) <==> n <= 0 && PaddedDigits(s[1..], -n)
  {
    if Spells(s, n) {
      SpellsMinusForward(s, n);
    }
    if n <= 0 && PaddedDigits(s[1..], -n) {
      var k: nat :| s[1..] == ZeroChars(k) + DigitText(-n);
      assert SpellsWith(s, n, k);
    }
  }

  lemma SpellsMinusForward(s: string, n: int)
    requires 0 < |s| && s[0] == '-'
    requires Spells(s, n)
    ensures n <= 0 && PaddedDigits(s[1..], -n)
  {
    var k: nat :| SpellsWith(s, n, k);
    if 0 <= n {
      SpellingParts("", k, n);
      SpellingParts("+", k, n);
    }
    if n <= 0 {
      SpellingParts("-", k, -n);
    }
    assert s == Spelling("-", k, -n);
  }

  lemma TryParseIntPlus(s: string, n: int)
    requires 0 < |s| && s[0] == '+'
    ensures TryParseInt(s) == Some(n) <==> MinInt32 <= n <= MaxInt32 && Spells(s, n)
  {
    PlusValue(s, n);
    SpellsPlus(s, n);
    if 0 <= n {
      DigitsIff(s[1..], n);
    }
    Glue(TryParseInt(s) == Some(n), Spells(s, n), MinInt32 <= n <= MaxInt32, 0 <= n,
         Decimal.ParseNat(Ascii(s[1..])) == Some(n), 0 <= n && PaddedDigits(s[1..], n));
  }

  lemma PlusValue(s: string, n: int)
    requires 0 < |s| && s[0] == '+'
    ensures TryParseInt(s) == Some(n) <==> MinInt32 <= n <= MaxInt32 && 0 <= n && Decimal.ParseNat(Ascii(s[1..])) == Some(n)
  {
  }

  lemma SpellsPlus(s: string, n: int)
    requires 0 < |s| && s[0] == '+'
    ensures Spells(s, n) <==> 0 <= n && PaddedDigits(s[1..], n)
  {
    if Spells(s, n) {
      SpellsPlusForward(s, n);
    }
    if 0 <= n && PaddedDigits(s[1..], n) {
      var k: nat :| s[1..] == ZeroChars(k) + DigitText(n);
      assert SpellsWith(s, n, k);
    }
  }

  lemma SpellsPlusForward(s: string, n: int)
    requires 0 < |s| && s[0] == '+'
    requires Spells(s, n)
    ensures 0 <= n && PaddedDigits(s[1..], n)
  {
    var k: nat :| SpellsWith(s, n, k);
    if 0 <= n {
      SpellingParts("", k, n);
      SpellingParts("+", k, n);
    }
    if n <= 0 {
      SpellingParts("-", k, -n);
    }
    assert s == Spelling("+", k, n);
  }

  lemma TryParseIntBare(s: string, n: int)
    requires !(0 < |s| && (s[0] == '-' || s[0] == '+'))
    ensures TryParseInt(s) == Some(n) <==> MinInt32 <= n <= MaxInt32 && Spells(s, n)
  {
    BareValue(s, n);
    SpellsBare(s, n);
    if 0 <= n {
      DigitsIff(s, n);
    }
    Glue(TryParseInt(s) == Some(n), Spells(s, n), MinInt32 <= n <= MaxInt32, 0 <= n,
         Decimal.ParseNat(Ascii(s)) == Some(n), 0 <= n && PaddedDigits(s, n));
  }

  lemma BareValue(s: string, n: int)
    requires !(0 < |s| && (s[0] == '-' || s[0] == '+'))
    ensures TryParseInt(s) == Some(n) <==> MinInt32 <= n <= MaxInt32 && 0 <= n && Decimal.ParseNat(Ascii(s)) == Some(n)
  {
  }

  lemma SpellsBare(s: string, n: int)
    requires !(0 < |s| && (s[0] == '-' || s[0] == '+'))
    ensures Spells(s, n) <==> 0 <= n && PaddedDigits(s, n)
  {
    if Spells(s, n) {
      var k: nat :| SpellsWith(s, n, k);
      if 0 <= n {
        SpellingParts("", k, n);
        SpellingParts("+", k, n);
      }
      if n <= 0 {
        SpellingParts("-", k, -n);
      }
      assert 0 <= n && s == Spelling("", k, n);
      assert s == ZeroChars(k) + DigitText(n);
    }
    if 0 <= n && PaddedDigits(s, n) {
      var k: nat :| s == ZeroChars(k) + DigitText(n);
      assert SpellsWith(s, n, k);
    }
  }

  /** A spelling without a sign starts with a digit. */
  lemma StartsWithDigit(k: nat, m: nat)
    ensures '0' <= (ZeroChars(k) + DigitText(m))[0] <= '9'
  {
  }

  /** Character-level form of the digit-run characterisation. */
  lemma DigitsIff(t: string, m: nat)
    ensures Decimal.ParseNat(Ascii(t)) == Some(m) <==> PaddedDigits(t, m)
  {
    Decimal.ParseNatIff(Ascii(t), m);
    if Decimal.ParseNat(Ascii(t)) == Some(m) {
      var k: nat :| Ascii(t) == Decimal.Zeros(k) + Decimal.Format(m);
      AsciiZerosDigits(k, m);
      AsciiDigitsInjective(t, ZeroChars(k) + DigitText(m));
    }
    if PaddedDigits(t, m) {
      var k: nat :| t == ZeroChars(k) + DigitText(m);
      AsciiZerosDigits(k, m);
    }
  }

  lemma AsciiZerosDigits(k: nat, m: nat)
    ensures Ascii(ZeroChars(k) + DigitText(m)) == Decimal.Zeros(k) + Decimal.Format(m)
  {
    AsciiConcat(ZeroChars(k), DigitText(m));
    assert Ascii(ZeroChars(k)) == Decimal.Zeros(k);
  }

  /** Texts whose ASCII bytes are digits are determined by those bytes. */
  lemma AsciiDigitsInjective(a: string, b: string)
    requires Ascii(a) == Ascii(b)
    requires Decimal.AllDigits(Ascii(a))
    ensures a == b
  {
    forall i | 0 <= i < |a|
      ensures a[i] == b[i]
    {
      assert Decimal.IsDigit(Ascii(a)[i]);
    }
  }

  /** A flag's value stored into its field when it parses; otherwise nothing changes. */
  function Apply(a: Args, f: Flag, value: string): (r: Args)
    ensures r.raw == (if f == Raw && TryParseBool(value).Some? then TryParseBool(value).value else a.raw)
    ensures r.port == (if f == Port && TryParseInt(value).Some? then TryParseInt(value).value else a.port)
    ensures r.threadCount == (if f == ThreadCount && TryParseInt(value).Some? then TryParseInt(value).value else a.threadCount)
  {
    match f
    case Raw => (match TryParseBool(value) case Some(b) => a.(raw := b) case None => a)
    case Port => (match TryParseInt(value) case Some(n) => a.(port := n) case None => a)
    case ThreadCount => (match TryParseInt(value) case Some(n) => a.(threadCount := n) case None => a)
  }

  /** The argument list read from position `i` on: a flag takes the next
      argument as its value, anything else is skipped. */
  function ParseFrom(args: seq<string>, i: nat, acc: Args): (r: Result<Args, ArgsError>)
    requires i <= |args|
    ensures r.Failure? ==> r.error.index == |args| && 0 < |args| && FlagOf(args[|args| - 1]).Some?
    decreases |args| - i
  {
    if i == |args| then Success(acc)
    else match FlagOf(args[i])
      case None => ParseFrom(args, i + 1, acc)
      case Some(f) =>
        if i + 1 < |args| then ParseFrom(args, i + 2, Apply(acc, f, args[i + 1]))
        else Failure(IndexOutOfRange(i + 1))
  }

  /** What `Args.Parse` returns, or the out-of-range read it fails with. */
  function ParseArgs(args: seq<string>, processorCount: int): Result<Args, ArgsError> {
    ParseFrom(args, 0, Defaults(processorCount))
  }

  /** The loop of `Args.Parse`, one flag test after another. */
  method Parse(args: seq<string>, processorCount: int) returns (r: Result<Args, ArgsError>)
    ensures r == ParseArgs(args, processorCount)
  {
    var result := Defaults(processorCount);
    var i := 0;
    while i < |args|
      invariant 0 <= i <= |args|
      invariant ParseFrom(args, i, result) == ParseArgs(args, processorCount)
      decreases |args| - i
    {
      var name := args[i];
      if EqualsIgnoreCase(FlagName(Raw), name) {
        if i + 1 >= |args| {
          return Failure(IndexOutOfRange(i + 1));
        }
        var value := args[i + 1];
        var parsed := TryParseBool(value);
        if parsed.Some? {
          result := result.(raw := parsed.value);
        }
        i := i + 2;
      } else if EqualsIgnoreCase(FlagName(Port), name) {
        if i + 1 >= |args| {
          return Failure(IndexOutOfRange(i + 1));
        }
        var value := args[i + 1];
        var parsed := TryParseInt(value);
        if parsed.Some? {
          result := result.(port := parsed.value);
        }
        i := i + 2;
      } else if EqualsIgnoreCase(FlagName(ThreadCount), name) {
        if i + 1 >= |args| {
          return Failure(IndexOutOfRange(i + 1));
        }
        var value := args[i + 1];
        var parsed := TryParseInt(value);
        if parsed.Some? {
          result := result.(threadCount := parsed.value);
        }
        i := i + 2;
      } else {
        i := i + 1;
      }
    }
    return Success(result);
  }

  /** With no arguments every field keeps its default. */
  lemma NoArguments(processorCount: int)
    ensures ParseArgs([], processorCount) == Success(Args(false, 8081, processorCount))
  {
  }

  /** Parsing is a left fold over the arguments: a successful parse of a
      prefix is resumed, not redone, when more arguments follow. */
  lemma {:induction false} ParseExtends(args: seq<string>, more: seq<string>, i: nat, acc: Args)
    requires i <= |args|
    requires ParseFrom(args, i, acc).Success?
    ensures ParseFrom(args + more, i, acc) == ParseFrom(args + more, |args|, ParseFrom(args, i, acc).value)
    decreases |args| - i
  {
    var all := args + more;
    if i < |args| {
      assert all[i] == args[i];
      match FlagOf(args[i])
      case None =>
        ParseExtends(args, more, i + 1, acc);
      case Some(f) =>
        assert all[i + 1] == args[i + 1];
        ParseExtends(args, more, i + 2, Apply(acc, f, args[i + 1]));
    }
  }

  /** An argument that names no flag is skipped. */
  lemma UnknownSkipped(args: seq<string>, arg: string, processorCount: int)
    requires ParseArgs(args, processorCount).Success?
    requires FlagOf(arg).None?
    ensures ParseArgs(args + [arg], processorCount) == ParseArgs(args, processorCount)
  {
    ParseExtends(args, [arg], 0, Defaults(processorCount));
    assert (args + [arg])[|args|] == arg;
  }

  /** A flag takes the argument after it as its value, whatever that
      argument is, even another flag's name; the last valid value wins. */
  lemma FlagTakesNext(args: seq<string>, flag: string, value: string, processorCount: int)
    requires ParseArgs(args, processorCount).Success?
    requires FlagOf(flag).Some?
    ensures ParseArgs(args + [flag, value], processorCount)
         == Success(Apply(ParseArgs(args, processorCount).value, FlagOf(flag).value, value))
  {
    ParseExtends(args, [flag, value], 0, Defaults(processorCount));
    var all := args + [flag, value];
    assert all[|args|] == flag && all[|args| + 1] == value;
  }

  /** A flag with nothing after it reads past the end of the array. */
  lemma DanglingFlag(args: seq<string>, flag: string, processorCount: int)
    requires ParseArgs(args, processorCount).Success?
    requires FlagOf(flag).Some?
    ensures ParseArgs(args + [flag], processorCount) == Failure(IndexOutOfRange(|args| + 1))
  {
    ParseExtends(args, [flag], 0, Defaults(processorCount));
    assert (args + [flag])[|args|] == flag;
  }

  /** Flag names match in any case. */
  lemma FlagNamesIgnoreCase()
    ensures FlagOf("--raw") == Some(Raw) && FlagOf("--RAW") == Some(Raw)
    ensures FlagOf("--port") == Some(Port) && FlagOf("--PORT") == Some(Port)
    ensures FlagOf("--threadcount") == Some(ThreadCount) && FlagOf("--THREADCOUNT") == Some(ThreadCount)
    ensures FlagOf("-port").None? && FlagOf("port").None?
  {
    assert ToUpper("-port"[1]) != ToUpper(FlagName(Raw)[1]);
  }

  /** `--port --raw true`: `--raw` is the port's (unparseable) value, and
      `true` is then an unrecognised argument. */
  lemma ValueIsNotAFlag(processorCount: int)
    ensures ParseArgs(["--port", "--raw", "true"], processorCount) == Success(Defaults(processorCount))
  {
    assert FlagOf("--port") == Some(Port);
    assert TryParseInt("--raw").None? by {
      assert Ascii("-raw")[0] == 0x2D;
    }
    assert FlagOf("true").None?;
  }
}

=== FILE: connection.dfy ===
/** The per-connection loop of `HttpConnectionContext`: parse the start line,
    then the headers, then hand the request to the handler and start over.
    Kestrel's HTTP parser is an oracle: for the bytes it is given it reports
    a parsed start line or header block with the bytes it left unconsumed,
    that more input is needed, or that the input is malformed (it throws). */
module Connection {

  import opened Bytes
  import opened Wrappers
  import Request
  import opened Message

  datatype State = StartLine | Headers | Body

  /** Position of a state in the forward order StartLine, Headers, Body. */
  function Rank(s: State): nat {
    match s
    case StartLine => 0
    case Headers => 1
    case Body => 2
  }

  const HeaderConnection: bytes := Ascii("Connection")
  const HeaderConnectionKeepAlive: bytes := Ascii("keep-alive")

  /** The fields of one connection. `observed` records, in order, every
      header forwarded to the handler's header hook. */
  datatype Context = Context(
    state: State,
    httpMethod: Request.HttpMethod,
    path: bytes,
    query: bytes,
    keepAlive: bool,
    observed: seq<Header>)

  /** A new connection: waiting for a start line, no keep-alive, nothing
      forwarded. The C# fields `_path` and `_query` stay null until the
      first start line; they are empty here, and no response is written
      before a start line has set them. */
  const Fresh: Context := Context(StartLine, Request.Get, [], [], false, [])

  datatype LineOutcome = LineParsed(line: Request.RequestLine, rest: bytes) | LineIncomplete | LineMalformed

  datatype HeadersOutcome =
    | HeadersParsed(headers: seq<Header>, rest: bytes)
    | HeadersIncomplete(headers: seq<Header>, rest: bytes)
    | HeadersMalformed

  /** The HTTP parser as seen from the connection. */
  datatype Parser = Parser(requestLine: bytes -> LineOutcome, headers: bytes -> HeadersOutcome)

  /** The start-line callback keeps method, path and query. */
  function OnStartLine(c: Context, line: Request.RequestLine): (r: Context)
    ensures r.httpMethod == line.httpMethod && r.path == line.path && r.query == line.query
    ensures r.state == c.state && r.keepAlive == c.keepAlive && r.observed == c.observed
  {
    c.(httpMethod := line.httpMethod, path := line.path, query := line.query)
  }

  /** `Connection: keep-alive`, compared byte for byte: case matters in both
      the name and the value. */
  predicate IsKeepAlive(h: Header) {
    h.name == HeaderConnection && h.value == HeaderConnectionKeepAlive
  }

  /** The header callback: notes keep-alive and forwards the header to the handler. */
  function OnHeader(c: Context, h: Header): (r: Context)
    ensures r.keepAlive <==> c.keepAlive || IsKeepAlive(h)
    ensures r.observed == c.observed + [h]
    ensures r.state == c.state && r.httpMethod == c.httpMethod && r.path == c.path && r.query == c.query
  {
    var c' := if IsKeepAlive(h) then c.(keepAlive := true) else c;
    c'.(observed := c.observed + [h])
  }

  /** The header callback applied to each header the parser reports, in order. */
  function OnHeaders(c: Context, hs: seq<Header>): (r: Context)
    ensures r.keepAlive <==> c.keepAlive || exists i | 0 <= i < |hs| :: IsKeepAlive(hs[i])
    ensures r.observed == c.observed + hs
    ensures r.state == c.state && r.httpMethod == c.httpMethod && r.path == c.path && r.query == c.query
    decreases |hs|
  {
    if |hs| == 0 then c
    else
      var r := OnHeaders(OnHeader(c, hs[0]), hs[1..]);
      assert forall i | 1 <= i < |hs| :: hs[i] == hs[1..][i - 1];
      assert c.observed + [hs[0]] + hs[1..] == c.observed + hs;
      r
  }

  datatype Parsed = Parsed(context: Context, rest: bytes) | Malformed

  /** The bytes the header parse runs on in this call, if it runs at all. */
  function HeaderInput(c: Context, buffer: bytes, p: Parser): Option<bytes> {
    match c.state
    case StartLine =>
      (match p.requestLine(buffer)
       case LineParsed(_, rest) => Some(rest)
       case _ => None)
    case Headers => Some(buffer)
    case Body => None
  }

  /** One call of the parse step: the start line if it is still due, then the
      header block if the connection is (now) in the header state. */
  function ParseHttpRequest(c: Context, buffer: bytes, p: Parser): (r: Parsed)
    ensures r.Parsed? ==> Rank(c.state) <= Rank(r.context.state)
    ensures r.Parsed? && c.state == StartLine ==>
      (r.context.state != StartLine <==> p.requestLine(buffer).LineParsed?)
    ensures r.Parsed? ==>
      (r.context.state == Body <==>
        c.state == Body || (HeaderInput(c, buffer, p).Some? && p.headers(HeaderInput(c, buffer, p).value).HeadersParsed?))
    ensures r.Parsed? ==> Extends(c.observed, r.context.observed)
    ensures r.Parsed? ==> r.context.keepAlive == (c.keepAlive || exists h | h in r.context.observed[|c.observed|..] :: IsKeepAlive(h))
  {
    var line :=
      if c.state == StartLine then
        match p.requestLine(buffer)
        case LineParsed(l, rest) => Parsed(OnStartLine(c, l).(state := Headers), rest)
        case LineIncomplete => Parsed(c, buffer)
        case LineMalformed => Malformed
      else
        Parsed(c, buffer);
    match line
    case Malformed => Malformed
    case Parsed(c1, buffer1) =>
      if c1.state == Headers then
        match p.headers(buffer1)
        case HeadersParsed(hs, rest) => KeepAliveFromHeaders(c1, hs); Parsed(OnHeaders(c1, hs).(state := Body), rest)
        case HeadersIncomplete(hs, rest) => KeepAliveFromHeaders(c1, hs); Parsed(OnHeaders(c1, hs), rest)
        case HeadersMalformed => Malformed
      else
        Parsed(c1, buffer1)
  }

  /** Keep-alive after the header callbacks, in terms of the observation log. */
  lemma KeepAliveFromHeaders(c: Context, hs: seq<Header>)
    ensures Extends(c.observed, OnHeaders(c, hs).observed)
    ensures var r := OnHeaders(c, hs);
      r.keepAlive == (c.keepAlive || exists h | h in r.observed[|c.observed|..] :: IsKeepAlive(h))
  {
    var r := OnHeaders(c, hs);
    assert r.observed[|c.observed|..] == hs;
    assert r.observed[..|c.observed|] == c.observed;
    if exists i | 0 <= i < |hs| :: IsKeepAlive(hs[i]) {
      var i :| 0 <= i < |hs| && IsKeepAlive(hs[i]);
      assert hs[i] in hs;
    }
  }

  /** The header match is exact bytes: other spellings do not count. */
  lemma KeepAliveCaseSensitive()
    ensures IsKeepAlive(Header(Ascii("Connection"), Ascii("keep-alive")))
    ensures !IsKeepAlive(Header(Ascii("connection"), Ascii("keep-alive")))
    ensures !IsKeepAlive(Header(Ascii("Connection"), Ascii("Keep-Alive")))
  {
    assert Ascii("connection")[0] != HeaderConnection[0];
    assert Ascii("Keep-Alive")[0] != HeaderConnectionKeepAlive[0];
  }

  /** Start line and header block can both complete in one call: the
      connection goes from StartLine to Body with the start line's fields and
      the headers' keep-alive flag. */
  lemma StartLineToBody(c: Context, buffer: bytes, p: Parser)
    requires c.state == StartLine
    requires p.requestLine(buffer).LineParsed?
    requires p.headers(p.requestLine(buffer).rest).HeadersParsed?
    ensures var line := p.requestLine(buffer).line;
      var hs := p.headers(p.requestLine(buffer).rest).headers;
      && ParseHttpRequest(c, buffer, p).Parsed?
      && ParseHttpRequest(c, buffer, p).context.state == Body
      && RequestOf(ParseHttpRequest(c, buffer, p).context)
         == Request.Request(line.httpMethod, line.path, line.query,
                            c.keepAlive || exists i | 0 <= i < |hs| :: IsKeepAlive(hs[i]))
      && ParseHttpRequest(c, buffer, p).rest == p.headers(p.requestLine(buffer).rest).rest
  {
  }

  /** What one read of the input pipe returns: the buffered bytes and
      whether the peer has finished sending. */
  datatype ReadResult = ReadResult(buffer: bytes, isCompleted: bool)

  /** What reaches the pipe before a read returns: the new bytes from the
      peer, whether the peer has now finished, and the Date bytes the date
      cache holds while that read is handled. */
  datatype Arrival = Arrival(data: bytes, isCompleted: bool, date: bytes)

  /** Why the loop ended: the peer closed between requests, the peer closed
      before a request was complete, or the parser threw. */
  datatype Exit = EndOfInput | Truncated | Aborted

  /** A request handed to the handler, the Date bytes current then and the
      index of the read that completed it. */
  datatype Served = Served(request: Request.Request, date: bytes, read: nat)

  /** The handler: the bytes it writes for a request, given the current
      Date bytes. */
  type Handler = (Request.Request, bytes) -> bytes

  /** A request completed by one read, the Date bytes current then and the
      bytes the handler wrote in reply. */
  datatype Dispatch = Dispatch(request: Request.Request, date: bytes, response: bytes)

  datatype Iteration =
    | Continue(context: Context, rest: bytes, dispatch: Option<Dispatch>)
    | Close(exit: Exit)

  function RequestOf(c: Context): Request.Request {
    Request.Request(c.httpMethod, c.path, c.query, c.keepAlive)
  }

  /** One iteration of the read loop on what the read returned; `rest` is
      what the parse left unconsumed. */
  function Step(c: Context, read: ReadResult, date: bytes, p: Parser, handler: Handler): (s: Iteration)
    ensures |read.buffer| == 0 && read.isCompleted ==> s == Close(EndOfInput)
    ensures s.Continue? ==> !read.isCompleted || s.dispatch.Some?
    ensures read.isCompleted
         && !(ParseHttpRequest(c, read.buffer, p).Parsed? && ParseHttpRequest(c, read.buffer, p).context.state == Body)
        ==> s.Close?
    ensures ParseHttpRequest(c, read.buffer, p).Malformed? ==> s.Close?
    ensures !(|read.buffer| == 0 && read.isCompleted) && ParseHttpRequest(c, read.buffer, p).Malformed?
        ==> s == Close(Aborted)
    ensures !(|read.buffer| == 0 && read.isCompleted) && read.isCompleted
         && ParseHttpRequest(c, read.buffer, p).Parsed? && ParseHttpRequest(c, read.buffer, p).context.state != Body
        ==> s == Close(Truncated)
    ensures !(|read.buffer| == 0 && read.isCompleted)
         && ParseHttpRequest(c, read.buffer, p).Parsed? && ParseHttpRequest(c, read.buffer, p).context.state == Body
        ==> s.Continue? && s.dispatch.Some?
    ensures s.Continue? ==> ParseHttpRequest(c, read.buffer, p).Parsed? && s.rest == ParseHttpRequest(c, read.buffer, p).rest
    ensures s.Continue? && s.dispatch.None? ==> s.context == ParseHttpRequest(c, read.buffer, p).context
    ensures s.Continue? && c.state != Body ==> s.context.state != Body
    ensures s.Continue? ==> (c.keepAlive ==> s.context.keepAlive)
    ensures s.Continue? && s.dispatch.Some? ==>
      && ParseHttpRequest(c, read.buffer, p).context.state == Body
      && s.dispatch.value.request == RequestOf(ParseHttpRequest(c, read.buffer, p).context)
      && s.dispatch.value.date == date
      && s.dispatch.value.response == handler(s.dispatch.value.request, date)
      && s.context.state == StartLine
  {
    if |read.buffer| == 0 && read.isCompleted then
      Close(EndOfInput)
    else
      match ParseHttpRequest(c, read.buffer, p)
      case Malformed => Close(Aborted)
      case Parsed(c', rest) =>
        if c'.state != Body && read.isCompleted then
          Close(Truncated)
        else if c'.state == Body then
          var request := RequestOf(c');
          Continue(c'.(state := StartLine), rest, Some(Dispatch(request, date, handler(request, date))))
        else
          Continue(c', rest, None)
  }

  /** The bytes flushed for a sequence of requests, one response after another. */
  function Responses(served: seq<Served>, handler: Handler): bytes {
    if |served| == 0 then [] else handler(served[0].request, served[0].date) + Responses(served[1..], handler)
  }

  /** The read `next` of the loop: the bytes left unconsumed so far followed
      by what arrived since. */
  function ReadAt(pending: bytes, arrivals: seq<Arrival>, next: nat): ReadResult
    requires next < |arrivals|
  {
    ReadResult(pending + arrivals[next].data, arrivals[next].isCompleted)
  }

  /** The requests served, the bytes flushed, how the loop ended (None while
      it still waits for input), the connection fields and the bytes still
      unconsumed in the pipe. When the loop closed, `last` and `pending` are
      the fields and bytes it held before the read that closed it; otherwise
      they are what the last iteration left. */
  datatype Trace = Trace(served: seq<Served>, output: bytes, exit: Option<Exit>, last: Context, pending: bytes)

  /** The loop from read `next` on. Each read returns the bytes the previous
      iteration left unconsumed, followed by what arrived since: the pipe
      keeps everything behind the consumed cursor. */
  function Loop(c: Context, pending: bytes, arrivals: seq<Arrival>, next: nat, p: Parser, handler: Handler): (t: Trace)
    requires next <= |arrivals|
    ensures |t.served| <= |arrivals| - next
    ensures t.output == Responses(t.served, handler)
    ensures forall i | 0 <= i < |t.served| ::
      next <= t.served[i].read < |arrivals| && t.served[i].date == arrivals[t.served[i].read].date
    ensures forall i, j | 0 <= i < j < |t.served| :: t.served[i].read < t.served[j].read
    ensures next < |arrivals| ==>
      var s := Step(c, ReadAt(pending, arrivals, next), arrivals[next].date, p, handler);
      && (s.Continue? && s.dispatch.Some? ==>
            0 < |t.served| && t.served[0].read == next && t.served[0].request == s.dispatch.value.request)
      && (s.Close? ==> t.served == [] && t.exit == Some(s.exit))
    ensures c.state != Body ==> t.last.state != Body
    ensures c.keepAlive ==> t.last.keepAlive
    decreases |arrivals| - next
  {
    if next == |arrivals| then
      Trace([], [], None, c, pending)
    else
      match Step(c, ReadAt(pending, arrivals, next), arrivals[next].date, p, handler)
      case Close(e) => Trace([], [], Some(e), c, pending + arrivals[next].data)
      case Continue(c', rest, None) => Loop(c', rest, arrivals, next + 1, p, handler)
      case Continue(c', rest, Some(d)) =>
        var t := Loop(c', rest, arrivals, next + 1, p, handler);
        var head := Served(d.request, d.date, next);
        assert ([head] + t.served)[1..] == t.served;
        Trace([head] + t.served, d.response + t.output, t.exit, t.last, t.pending)
  }

  /** The whole loop, from the first read with nothing left over. Requests
      are served at most one per read, in the order of the reads, each with
      the Date bytes of the read that completed it. */
  function Run(c: Context, pending: bytes, arrivals: seq<Arrival>, p: Parser, handler: Handler): (t: Trace)
    ensures |t.served| <= |arrivals|
    ensures t.output == Responses(t.served, handler)
    ensures forall i | 0 <= i < |t.served| ::
      t.served[i].read < |arrivals| && t.served[i].date == arrivals[t.served[i].read].date
    ensures forall i, j | 0 <= i < j < |t.served| :: t.served[i].read < t.served[j].read
    ensures 0 < |arrivals| ==>
      var s := Step(c, ReadAt(pending, arrivals, 0), arrivals[0].date, p, handler);
      && (s.Continue? && s.dispatch.Some? ==>
            0 < |t.served| && t.served[0].read == 0 && t.served[0].request == s.dispatch.value.request)
      && (s.Close? ==> t.served == [] && t.exit == Some(s.exit))
    ensures c.state != Body ==> t.last.state != Body
    ensures c.keepAlive ==> t.last.keepAlive
  {
    Loop(c, pending, arrivals, 0, p, handler)
  }

  /** One dispatching iteration of the loop, unfolded: the request is served
      first, and the next read resumes from the fields and the unconsumed
      bytes the iteration left. */
  lemma LoopDispatches(c: Context, pending: bytes, arrivals: seq<Arrival>, next: nat, p: Parser, handler: Handler)
    requires next < |arrivals|
    requires Step(c, ReadAt(pending, arrivals, next), arrivals[next].date, p, handler).Continue?
    requires Step(c, ReadAt(pending, arrivals, next), arrivals[next].date, p, handler).dispatch.Some?
    ensures var s := Step(c, ReadAt(pending, arrivals, next), arrivals[next].date, p, handler);
      var d := s.dispatch.value;
      var t := Loop(s.context, s.rest, arrivals, next + 1, p, handler);
      Loop(c, pending, arrivals, next, p, handler)
        == Trace([Served(d.request, d.date, next)] + t.served, d.response + t.output, t.exit, t.last, t.pending)
  {
    var s := Step(c, ReadAt(pending, arrivals, next), arrivals[next].date, p, handler);
    assert s == Continue(s.context, s.rest, Some(s.dispatch.value));
  }

  /** One iteration of the loop that only advances the parse, unfolded: the
      next read resumes from the parsed fields and the unconsumed bytes. */
  lemma LoopAdvances(c: Context, pending: bytes, arrivals: seq<Arrival>, next: nat, p: Parser, handler: Handler)
    requires next < |arrivals|
    requires Step(c, ReadAt(pending, arrivals, next), arrivals[next].date, p, handler).Continue?
    requires Step(c, ReadAt(pending, arrivals, next), arrivals[next].date, p, handler).dispatch.None?
    ensures var s := Step(c, ReadAt(pending, arrivals, next), arrivals[next].date, p, handler);
      Loop(c, pending, arrivals, next, p, handler) == Loop(s.context, s.rest, arrivals, next + 1, p, handler)
  {
    var s := Step(c, ReadAt(pending, arrivals, next), arrivals[next].date, p, handler);
    assert s == Continue(s.context, s.rest, None);
  }

  /** A closing iteration ends the loop with its exit, serving nothing. */
  lemma LoopCloses(c: Context, pending: bytes, arrivals: seq<Arrival>, next: nat, p: Parser, handler: Handler)
    requires next < |arrivals|
    requires Step(c, ReadAt(pending, arrivals, next), arrivals[next].date, p, handler).Close?
    ensures var s := Step(c, ReadAt(pending, arrivals, next), arrivals[next].date, p, handler);
      Loop(c, pending, arrivals, next, p, handler) == Trace([], [], Some(s.exit), c, pending + arrivals[next].data)
  {
    var s := Step(c, ReadAt(pending, arrivals, next), arrivals[next].date, p, handler);
    assert s == Close(s.exit);
  }

  /** Serving one more request before a split trace regroups. */
  lemma ConsSplit(head: Served, response: bytes, u1: Trace, t2: Trace)
    ensures Trace([head] + (u1.served + t2.served), response + (u1.output + t2.output), t2.exit, t2.last, t2.pending)
         == Trace(([head] + u1.served) + t2.served, (response + u1.output) + t2.output, t2.exit, t2.last, t2.pending)
  {
    assert [head] + (u1.served + t2.served) == ([head] + u1.served) + t2.served;
    assert response + (u1.output + t2.output) == (response + u1.output) + t2.output;
  }

  /** The loop over the reads up to `m`, then, unless it closed, the loop
      over the reads from `m` on, resumed from the connection fields and the
      unconsumed bytes the first part left: together they are the loop over
      all the reads. A loop that closed reads nothing more. */
  lemma {:induction false} LoopSplit(c: Context, pending: bytes, arrivals: seq<Arrival>, next: nat, m: nat,
                                     p: Parser, handler: Handler)
    requires next <= m <= |arrivals|
    ensures var t1 := Loop(c, pending, arrivals[..m], next, p, handler);
      var t := Loop(c, pending, arrivals, next, p, handler);
      if t1.exit.Some? then t == t1
      else
        var t2 := Loop(t1.last, t1.pending, arrivals, m, p, handler);
        t == Trace(t1.served + t2.served, t1.output + t2.output, t2.exit, t2.last, t2.pending)
    decreases m - next
  {
    var prefix := arrivals[..m];
    if next == m {
      var t := Loop(c, pending, arrivals, next, p, handler);
      assert [] + t.served == t.served && [] + t.output == t.output;
    } else {
      assert prefix[next] == arrivals[next];
      var s := Step(c, ReadAt(pending, arrivals, next), arrivals[next].date, p, handler);
      assert Step(c, ReadAt(pending, prefix, next), prefix[next].date, p, handler) == s;
      if s.Close? {
        LoopCloses(c, pending, prefix, next, p, handler);
        LoopCloses(c, pending, arrivals, next, p, handler);
      } else if s.dispatch.None? {
        LoopAdvances(c, pending, prefix, next, p, handler);
        LoopAdvances(c, pending, arrivals, next, p, handler);
        LoopSplit(s.context, s.rest, arrivals, next + 1, m, p, handler);
      } else {
        LoopDispatches(c, pending, prefix, next, p, handler);
        LoopDispatches(c, pending, arrivals, next, p, handler);
        LoopSplit(s.context, s.rest, arrivals, next + 1, m, p, handler);
        var u1 := Loop(s.context, s.rest, prefix, next + 1, p, handler);
        var d := s.dispatch.value;
        ConsSplit(Served(d.request, d.date, next), d.response, u1,
                  Loop(u1.last, u1.pending, arrivals, m, p, handler));
      }
    }
  }

  /** The loop over `a + b` is the loop over `a` followed, unless it closed,
      by the reads of `b` resumed from where `a` left the connection. */
  lemma RunAppend(c: Context, pending: bytes, a: seq<Arrival>, b: seq<Arrival>, p: Parser, handler: Handler)
    ensures var t1 := Run(c, pending, a, p, handler);
      var t := Run(c, pending, a + b, p, handler);
      if t1.exit.Some? then t == t1
      else
        var t2 := Loop(t1.last, t1.pending, a + b, |a|, p, handler);
        t == Trace(t1.served + t2.served, t1.output + t2.output, t2.exit, t2.last, t2.pending)
  {
    assert (a + b)[..|a|] == a;
    LoopSplit(c, pending, a + b, 0, |a|, p, handler);
  }

  /** Two requests that reach the server in one chunk are both served, the
      second from the bytes the first left in the pipe, even when the peer
      finishes sending right after the chunk. Each response carries the Date
      bytes current when it is written. */
  lemma TwoRequestsInOneChunk(chunk: bytes, p: Parser, handler: Handler, d1: bytes, d2: bytes, d3: bytes)
    requires p.requestLine(chunk).LineParsed?
    requires p.headers(p.requestLine(chunk).rest).HeadersParsed?
    requires var second := p.headers(p.requestLine(chunk).rest).rest;
      && 0 < |second|
      && p.requestLine(second).LineParsed?
      && p.headers(p.requestLine(second).rest) == HeadersParsed([], [])
    ensures var second := p.headers(p.requestLine(chunk).rest).rest;
      var t := Run(Fresh, [], [Arrival(chunk, false, d1), Arrival([], true, d2), Arrival([], true, d3)], p, handler);
      && |t.served| == 2
      && t.served[0].request.path == p.requestLine(chunk).line.path && t.served[0].date == d1
      && t.served[1].request.path == p.requestLine(second).line.path && t.served[1].date == d2
      && t.exit == Some(EndOfInput)
  {
    var second := p.headers(p.requestLine(chunk).rest).rest;
    var arrivals := [Arrival(chunk, false, d1), Arrival([], true, d2), Arrival([], true, d3)];
    assert ReadAt([], arrivals, 0) == ReadResult(chunk, false) by { assert [] + chunk == chunk; }
    StartLineToBody(Fresh, chunk, p);
    var s1 := Step(Fresh, ReadResult(chunk, false), d1, p, handler);
    assert s1.rest == second && s1.context.state == StartLine;
    LoopDispatches(Fresh, [], arrivals, 0, p, handler);
    assert ReadAt(second, arrivals, 1) == ReadResult(second, true) by { assert second + [] == second; }
    StartLineToBody(s1.context, second, p);
    var s2 := Step(s1.context, ReadResult(second, true), d2, p, handler);
    assert s2.rest == [];
    LoopDispatches(s1.context, second, arrivals, 1, p, handler);
    assert ReadAt([], arrivals, 2) == ReadResult([], true);
    var t3 := Loop(s2.context, [], arrivals, 2, p, handler);
    assert t3.served == [] && t3.exit == Some(EndOfInput);
  }
}

=== FILE: decimal.dfy ===
/** Decimal digits as .NET formats a non-negative integer (`Int32.ToString`)
    and as an HTTP client reads a Content-Length value back. */
module Decimal {

  import opened Wrappers
  import opened Bytes

  const Zero: byte := 0x30

  predicate IsDigit(b: byte) {
    Zero <= b <= 0x39
  }

  predicate AllDigits(s: bytes) {
    forall i | 0 <= i < |s| :: IsDigit(s[i])
  }

  /** The ASCII digit for a value below ten. */
  function Digit(d: nat): (b: byte)
    requires d < 10
    ensures IsDigit(b) && (b - Zero) as int == d
  {
    Zero + d as byte
  }

  function DigitValue(b: byte): (d: nat)
    requires IsDigit(b)
    ensures d < 10 && Digit(d) == b
  {
    (b - Zero) as int
  }

  /** Shortest decimal representation of `n`: no sign, no leading zero. */
  function Format(n: nat): (r: bytes)
    ensures 1 <= |r|
    ensures AllDigits(r)
    ensures |r| > 1 ==> r[0] != Zero
    decreases n
  {
    if n < 10 then [Digit(n)] else Format(n / 10) + [Digit(n % 10)]
  }

  /** The value of a run of digits, most significant first. */
  function Value(s: bytes): nat
    requires AllDigits(s)
  {
    if |s| == 0 then 0 else Value(s[..|s| - 1]) * 10 + DigitValue(s[|s| - 1])
  }

  /** Reads a non-empty run of decimal digits; anything else is rejected. */
  function ParseNat(s: bytes): (r: Option<nat>)
    ensures r.Some? <==> 0 < |s| && AllDigits(s)
  {
    if 0 < |s| && AllDigits(s) then Some(Value(s)) else None
  }

  /** Formatting then reading a natural number gives it back. */
  lemma {:induction false} ParseFormat(n: nat)
    ensures ParseNat(Format(n)) == Some(n)
    decreases n
  {
    if n < 10 {
      assert Value([Digit(n)]) == Value([]) * 10 + DigitValue(Digit(n));
    } else {
      ParseFormat(n / 10);
      var s := Format(n / 10) + [Digit(n % 10)];
      assert s[..|s| - 1] == Format(n / 10);
      assert Value(s) == Value(Format(n / 10)) * 10 + n % 10;
    }
  }

  /** `k` zero digits. */
  function Zeros(k: nat): (r: bytes)
    ensures |r| == k && AllDigits(r)
    ensures forall i | 0 <= i < k :: r[i] == Zero
  {
    seq(k, _ => Zero)
  }

  /** Leading zeros do not change the value of a digit run. */
  lemma {:induction false} ValueLeadingZeros(k: nat, s: bytes)
    requires AllDigits(s)
    ensures AllDigits(Zeros(k) + s)
    ensures Value(Zeros(k) + s) == Value(s)
    decreases |s|
  {
    var z := Zeros(k) + s;
    if |s| == 0 {
      assert z == Zeros(k);
      ZerosValue(k);
    } else {
      var init := s[..|s| - 1];
      assert z[..|z| - 1] == Zeros(k) + init;
      assert z[|z| - 1] == s[|s| - 1];
      ValueLeadingZeros(k, init);
    }
  }

  lemma {:induction false} ZerosValue(k: nat)
    ensures Value(Zeros(k)) == 0
    decreases k
  {
    if k > 0 {
      assert Zeros(k)[..k - 1] == Zeros(k - 1);
      ZerosValue(k - 1);
      assert DigitValue(Zero) == 0 by {
        assert Digit(0) == Zero;
      }
    }
  }

  /** A digit run that does not start with zero has a positive value. */
  lemma {:induction false} PositiveValue(s: bytes)
    requires 0 < |s| && AllDigits(s) && s[0] != Zero
    ensures Value(s) > 0
    decreases |s|
  {
    if |s| == 1 {
      assert Digit(0) == Zero;
    } else {
      PositiveValue(s[..|s| - 1]);
    }
  }

  /** A digit run without a leading zero is exactly how its value is written. */
  lemma {:induction false} FormatValue(s: bytes)
    requires 0 < |s| && AllDigits(s) && (|s| == 1 || s[0] != Zero)
    ensures Format(Value(s)) == s
    decreases |s|
  {
    var d := DigitValue(s[|s| - 1]);
    if |s| == 1 {
      assert Value(s) == Value(s[..0]) * 10 + d;
      assert s == [s[0]];
    } else {
      var init := s[..|s| - 1];
      FormatValue(init);
      PositiveValue(init);
      var n := Value(s);
      assert n == Value(init) * 10 + d;
      assert n / 10 == Value(init) && n % 10 == d;
      assert s == init + [s[|s| - 1]];
    }
  }

  /** The zeros in front of a digit run, keeping at least its last digit. */
  function LeadingZeros(s: bytes): (k: nat)
    ensures k <= |s|
    ensures 0 < |s| ==> k < |s|
    decreases |s|
  {
    if 1 < |s| && s[0] == Zero then 1 + LeadingZeros(s[1..]) else 0
  }

  /** Every digit run is some leading zeros followed by the shortest
      decimal text of its value. */
  lemma {:induction false} Canonical(s: bytes)
    requires 0 < |s| && AllDigits(s)
    ensures s == Zeros(LeadingZeros(s)) + Format(Value(s))
    decreases |s|
  {
    if 1 < |s| && s[0] == Zero {
      var tail := s[1..];
      var k := LeadingZeros(tail);
      assert LeadingZeros(s) == 1 + k;
      assert s == Zeros(1) + tail;
      Canonical(tail);
      assert Value(s) == Value(tail) by {
        ValueLeadingZeros(1, tail);
      }
      assert Zeros(1 + k) == Zeros(1) + Zeros(k);
      assert s == Zeros(1) + (Zeros(k) + Format(Value(tail)));
    } else {
      FormatValue(s);
    }
  }

  /** The digit runs that read as `n` are exactly the shortest text of `n`
      behind any number of zeros. */
  lemma ParseNatIff(s: bytes, n: nat)
    ensures ParseNat(s) == Some(n) <==> exists k: nat :: s == Zeros(k) + Format(n)
  {
    if ParseNat(s) == Some(n) {
      Canonical(s);
    }
    if exists k: nat :: s == Zeros(k) + Format(n) {
      var k: nat :| s == Zeros(k) + Format(n);
      ValueLeadingZeros(k, Format(n));
      ParseFormat(n);
    }
  }

  /** Decimal digits contain no CR, so a formatted number stays on one line. */
  lemma FormatExcludesCR(n: nat)
    ensures Excludes(Format(n), CR)
  {
  }
}

=== FILE: message.dfy ===
/** The HTTP/1.1 response layout the server emits, stated independently of
    the writer: a status line, header lines `name: value`, one empty line,
    then exactly Content-Length bytes of body. `ParseResponse` is the reading
    a client on a keep-alive connection applies to the byte stream; the
    writer's correctness is that this reading gets back what was written and
    leaves the following bytes untouched. */
module Message {

  import opened Wrappers
  import opened Bytes
  import Decimal

  datatype Header = Header(name: bytes, value: bytes)

  /** A response: the status text after `HTTP/1.1 `, headers in order, body. */
  datatype Message = Message(status: bytes, headers: seq<Header>, body: bytes)

  const Http11: bytes := Ascii("HTTP/1.1 ")
  const NameSeparator: bytes := Ascii(": ")
  const ContentLengthName: bytes := Ascii("Content-Length")

  function HeaderLine(h: Header): bytes {
    h.name + NameSeparator + h.value
  }

  function HeaderBlock(hs: seq<Header>): bytes {
    if |hs| == 0 then [] else HeaderLine(hs[0]) + CRLF + HeaderBlock(hs[1..])
  }

  function Serialize(m: Message): bytes {
    Http11 + m.status + CRLF + HeaderBlock(m.headers) + CRLF + m.body
  }

  /** A header the line reader splits back exactly. */
  predicate WellFormedHeader(h: Header) {
    Excludes(h.name, Colon) && Excludes(h.name, CR) && Excludes(h.value, CR)
  }

  /** The declared body length: the value of the first Content-Length header. */
  function ContentLength(hs: seq<Header>): (r: Option<nat>)
    ensures r.Some? ==> exists i | 0 <= i < |hs| :: hs[i].name == ContentLengthName
  {
    if |hs| == 0 then None
    else if hs[0].name == ContentLengthName then Decimal.ParseNat(hs[0].value)
    else ContentLength(hs[1..])
  }

  /** A response whose bytes a client can frame: lines free of CR, header
      names free of ':', and a Content-Length equal to the body length. */
  predicate WellFormed(m: Message) {
    && Excludes(m.status, CR)
    && (forall i | 0 <= i < |m.headers| :: WellFormedHeader(m.headers[i]))
    && ContentLength(m.headers) == Some(|m.body|)
  }

  function ParseHeaderLine(line: bytes): (r: Option<Header>)
    ensures r.Some? ==> HeaderLine(r.value) == line && Excludes(r.value.name, Colon)
  {
    var k :- FirstIndexOf(line, Colon);
    if k + 1 < |line| && line[k + 1] == Space then
      assert line == line[..k] + NameSeparator + line[k + 2..];
      Some(Header(line[..k], line[k + 2..]))
    else
      None
  }

  /** Header lines up to and including the empty line; the bytes after it. */
  function ParseHeaderBlock(s: bytes): (r: Option<(seq<Header>, bytes)>)
    ensures r.Some? ==> |r.value.1| + 2 <= |s|
    decreases |s|
  {
    var j :- FirstCrlf(s);
    if j == 0 then
      Some(([], s[2..]))
    else
      var h :- ParseHeaderLine(s[..j]);
      var (hs, rest) :- ParseHeaderBlock(s[j + 2..]);
      Some(([h] + hs, rest))
  }

  /** Reads one response off the front of `s`; returns it and what follows. */
  function ParseResponse(s: bytes): (r: Option<(Message, bytes)>)
    ensures r.Some? ==> |r.value.1| < |s|
  {
    var i :- FirstCrlf(s);
    var line := s[..i];
    if |line| < |Http11| || line[..|Http11|] != Http11 then None
    else
      var (hs, rest) :- ParseHeaderBlock(s[i + 2..]);
      var n :- ContentLength(hs);
      if n > |rest| then None
      else Some((Message(line[|Http11|..], hs, rest[..n]), rest[n..]))
  }

  /** Reads back-to-back responses until the bytes run out. */
  function ParseAll(s: bytes): Option<seq<Message>>
    decreases |s|
  {
    if |s| == 0 then Some([])
    else
      var (m, rest) :- ParseResponse(s);
      var ms :- ParseAll(rest);
      Some([m] + ms)
  }

  lemma {:induction false} ParseHeaderLineOf(h: Header)
    requires WellFormedHeader(h)
    ensures ParseHeaderLine(HeaderLine(h)) == Some(h)
  {
    var line := HeaderLine(h);
    assert line == h.name + [Colon] + ([Space] + h.value);
    FirstIndexAfterPrefix(h.name, Colon, [Space] + h.value);
    assert line[..|h.name|] == h.name;
    assert line[|h.name| + 2..] == h.value;
  }

  lemma {:induction false} ParseHeaderBlockOf(hs: seq<Header>, rest: bytes)
    requires forall i | 0 <= i < |hs| :: WellFormedHeader(hs[i])
    ensures ParseHeaderBlock(HeaderBlock(hs) + CRLF + rest) == Some((hs, rest))
    decreases |hs|
  {
    var s := HeaderBlock(hs) + CRLF + rest;
    if |hs| == 0 {
      assert s == [] + CRLF + rest;
      FirstCrlfAfterLine([], rest);
      assert s[2..] == rest;
    } else {
      var line := HeaderLine(hs[0]);
      var tail := HeaderBlock(hs[1..]) + CRLF + rest;
      assert s == line + CRLF + tail;
      assert WellFormedHeader(hs[0]);
      assert Excludes(line, CR) by {
        assert line == hs[0].name + NameSeparator + hs[0].value;
      }
      FirstCrlfAfterLine(line, tail);
      assert s[..|line|] == line;
      assert s[|line| + 2..] == tail;
      ParseHeaderLineOf(hs[0]);
      ParseHeaderBlockOf(hs[1..], rest);
      assert [hs[0]] + hs[1..] == hs;
    }
  }

  /** Round trip: a client reading a well-formed response followed by any
      further bytes gets the response back and the further bytes intact. */
  lemma {:induction false} ParseSerialize(m: Message, next: bytes)
    requires WellFormed(m)
    ensures ParseResponse(Serialize(m) + next) == Some((m, next))
  {
    var line := Http11 + m.status;
    var tail := HeaderBlock(m.headers) + CRLF + (m.body + next);
    var s := Serialize(m) + next;
    assert s == line + CRLF + tail;
    assert Excludes(line, CR);
    FirstCrlfAfterLine(line, tail);
    assert s[..|line|] == line;
    assert s[|line| + 2..] == tail;
    ParseHeaderBlockOf(m.headers, m.body + next);
    assert (m.body + next)[..|m.body|] == m.body;
    assert (m.body + next)[|m.body|..] == next;
    assert line[..|Http11|] == Http11;
    assert line[|Http11|..] == m.status;
  }
}

=== FILE: request.dfy ===
/** What the connection learns about a request from the HTTP parser and
    hands to the handler. */
module Request {

  import opened Bytes

  /** Kestrel's method enumeration; `Custom` covers methods it does not know. */
  datatype HttpMethod = Get | Put | Delete | Post | Head | Trace | Patch | Connect | Options | Custom | None

  /** The fields the start-line callback keeps. */
  datatype RequestLine = RequestLine(httpMethod: HttpMethod, path: bytes, query: bytes)

  /** The arguments the handler is invoked with. */
  datatype Request = Request(httpMethod: HttpMethod, path: bytes, query: bytes, keepAlive: bool)
}

=== FILE: response.dfy ===
/** The response writer of `Handler`: every operation appends to the output
    buffer of the current request and leaves what is already there alone. */
module Response {

  import opened Bytes
  import opened Wrappers
  import Decimal
  import opened Message

  /** The status line text, `<code> <reason>`; the three statuses the
      server knows, under the names it uses for them. */
  datatype HttpStatus = Status200 | Status400 | Status404 {

    static const Ok: HttpStatus := Status200
    static const BadRequest: HttpStatus := Status400
    static const NotFound: HttpStatus := Status404

    function Code(): nat {
      match this
      case Status200 => 200
      case Status400 => 400
      case Status404 => 404
    }

    function Reason(): string {
      match this
      case Status200 => "OK"
      case Status400 => "BAD REQUEST"
      case Status404 => "NOT FOUND"
    }

    function Value(): bytes {
      Decimal.Format(Code()) + Ascii(" ") + Ascii(Reason())
    }
  }

  datatype MediaType = TextPlain | ApplicationJson {

    function Value(): bytes {
      match this
      case TextPlain => Ascii("text/plain")
      case ApplicationJson => Ascii("application/json")
    }
  }

  /** What a terminal writer operation leaves behind: the output buffer and
      the status it reports to its caller. */
  datatype Written = Written(output: bytes, status: HttpStatus)

  const HeaderServer: bytes := Ascii("Server: Custom")
  const HeaderContentLength: bytes := Ascii("Content-Length: ")
  const HeaderContentType: bytes := Ascii("Content-Type: ")
  const HeaderContentLengthZero: bytes := Ascii("0")
  const HeaderConnectionKeepAlive: bytes := Ascii("Connection: keep-alive")

  /** The bytes the date cache hands out start with the CR LF that ends the
      Server line, then `Date: ` and the date itself. */
  const DatePrefix: bytes := CRLF + Ascii("Date: ")

  /** The date text inside the cached Date bytes, when they have the shape
      the cache produces. */
  function DateValue(date: bytes): (r: Option<bytes>)
    ensures r.Some? ==> date == DatePrefix + r.value && Excludes(r.value, CR)
  {
    if |DatePrefix| <= |date| && date[..|DatePrefix|] == DatePrefix && Excludes(date[|DatePrefix|..], CR) then
      assert date == DatePrefix + date[|DatePrefix|..];
      Some(date[|DatePrefix|..])
    else
      None
  }

  const ServerHeader: Header := Header(Ascii("Server"), Ascii("Custom"))
  const KeepAliveHeader: Header := Header(Ascii("Connection"), Ascii("keep-alive"))

  /** The headers every response starts with, in the order written. */
  function CommonHeaders(keepAlive: bool, dateValue: bytes): seq<Header> {
    [ServerHeader, Header(Ascii("Date"), dateValue)] + (if keepAlive then [KeepAliveHeader] else [])
  }

  /** The response `Ok` writes, as a client reads it. */
  function OkMessage(keepAlive: bool, dateValue: bytes, body: bytes, mediaType: MediaType): Message {
    Message(
      HttpStatus.Ok.Value(),
      CommonHeaders(keepAlive, dateValue)
        + [Header(Ascii("Content-Type"), mediaType.Value()), Header(ContentLengthName, Decimal.Format(|body|))],
      body)
  }

  /** The body-less response `NotFound` and `BadRequest` write. */
  function EmptyMessage(status: HttpStatus, keepAlive: bool, dateValue: bytes): Message {
    Message(status.Value(), CommonHeaders(keepAlive, dateValue) + [Header(ContentLengthName, HeaderContentLengthZero)], [])
  }

  /** Appends one header line; the name constant carries its own `: `. */
  function WriteHeader(output: bytes, name: bytes, value: bytes): (r: bytes)
    ensures Extends(output, r)
    ensures r[|output|..] == name + value + CRLF
  {
    output + name + value + CRLF
  }

  function WriteStartLine(output: bytes, status: HttpStatus): (r: bytes)
    ensures Extends(output, r)
    ensures r[|output|..] == Http11 + status.Value() + CRLF
  {
    output + (Http11 + status.Value() + CRLF)
  }

  /** Server line, the cached Date bytes with their CR LF, and the keep-alive
      line when the request asked for it. */
  function WriteCommonHeaders(output: bytes, keepAlive: bool, date: bytes): (r: bytes)
    ensures Extends(output, r)
    ensures DateValue(date).Some? ==> r == output + HeaderBlock(CommonHeaders(keepAlive, DateValue(date).value))
  {
    var r := output + HeaderServer + date + CRLF + (if keepAlive then HeaderConnectionKeepAlive + CRLF else []);
    if DateValue(date).Some? then
      CommonHeadersLayout(output, keepAlive, date, DateValue(date).value);
      r
    else
      r
  }

  function Ok(output: bytes, keepAlive: bool, body: bytes, mediaType: MediaType, date: bytes): (w: Written)
    ensures w.status == HttpStatus.Ok
    ensures Extends(output, w.output)
    ensures DateValue(date).Some? ==> w.output == output + Serialize(OkMessage(keepAlive, DateValue(date).value, body, mediaType))
  {
    var o1 := WriteStartLine(output, HttpStatus.Ok);
    var o2 := WriteCommonHeaders(o1, keepAlive, date);
    var o3 := WriteHeader(o2, HeaderContentType, mediaType.Value());
    var o4 := WriteHeader(o3, HeaderContentLength, Decimal.Format(|body|));
    var o := o4 + CRLF + body;
    ExtendsTransitive(output, o1, o2);
    ExtendsTransitive(output, o2, o3);
    ExtendsTransitive(output, o3, o4);
    assert Extends(o4, o) by { assert o[..|o4|] == o4; }
    ExtendsTransitive(output, o4, o);
    if DateValue(date).Some? then
      OkLayout(output, keepAlive, body, mediaType, date, DateValue(date).value);
      Written(o, HttpStatus.Ok)
    else
      Written(o, HttpStatus.Ok)
  }

  /** Serializes `value` with the external JSON serializer and writes it with
      media type application/json. */
  function Json<T>(output: bytes, keepAlive: bool, value: T, serialize: T -> bytes, date: bytes): (w: Written)
    ensures w == Ok(output, keepAlive, serialize(value), ApplicationJson, date)
  {
    var o := WriteStartLine(output, HttpStatus.Ok);
    var o := WriteCommonHeaders(o, keepAlive, date);
    var o := WriteHeader(o, HeaderContentType, ApplicationJson.Value());
    var body := serialize(value);
    var o := WriteHeader(o, HeaderContentLength, Decimal.Format(|body|));
    Written(o + CRLF + body, HttpStatus.Ok)
  }

  function WriteResponse(output: bytes, keepAlive: bool, status: HttpStatus, date: bytes): (w: Written)
    ensures w.status == status
    ensures Extends(output, w.output)
    ensures DateValue(date).Some? ==> w.output == output + Serialize(EmptyMessage(status, keepAlive, DateValue(date).value))
  {
    var o1 := WriteStartLine(output, status);
    var o2 := WriteCommonHeaders(o1, keepAlive, date);
    var o3 := WriteHeader(o2, HeaderContentLength, HeaderContentLengthZero);
    var o := o3 + CRLF;
    ExtendsTransitive(output, o1, o2);
    ExtendsTransitive(output, o2, o3);
    assert Extends(o3, o) by { assert o[..|o3|] == o3; }
    ExtendsTransitive(output, o3, o);
    if DateValue(date).Some? then
      EmptyLayout(output, keepAlive, status, date, DateValue(date).value);
      Written(o, status)
    else
      Written(o, status)
  }

  function NotFound(output: bytes, keepAlive: bool, date: bytes): (w: Written)
    ensures w.status == HttpStatus.NotFound
    ensures Extends(output, w.output)
    ensures DateValue(date).Some? ==> w.output == output + Serialize(EmptyMessage(HttpStatus.NotFound, keepAlive, DateValue(date).value))
  {
    WriteResponse(output, keepAlive, HttpStatus.NotFound, date)
  }

  function BadRequest(output: bytes, keepAlive: bool, date: bytes): (w: Written)
    ensures w.status == HttpStatus.BadRequest
    ensures Extends(output, w.output)
    ensures DateValue(date).Some? ==> w.output == output + Serialize(EmptyMessage(HttpStatus.BadRequest, keepAlive, DateValue(date).value))
  {
    WriteResponse(output, keepAlive, HttpStatus.BadRequest, date)
  }

  // Layout lemmas: the writer's fragments regroup into header lines.

  lemma HeaderConstants()
    ensures HeaderServer == HeaderLine(ServerHeader)
    ensures HeaderConnectionKeepAlive == HeaderLine(KeepAliveHeader)
    ensures HeaderContentType == Ascii("Content-Type") + NameSeparator
    ensures HeaderContentLength == ContentLengthName + NameSeparator
    ensures DatePrefix == CRLF + Ascii("Date") + NameSeparator
  {
    ServerLineText();
    KeepAliveLineText();
    AsciiConcat("Content-Type", ": ");
    AsciiConcat("Content-Length", ": ");
    DatePrefixText();
  }

  lemma ServerLineText()
    ensures HeaderServer == HeaderLine(ServerHeader)
  {
    AsciiConcat("Server", ": ");
    AsciiConcat("Server: ", "Custom");
    assert "Server: Custom" == "Server: " + "Custom";
  }

  lemma KeepAliveLineText()
    ensures HeaderConnectionKeepAlive == HeaderLine(KeepAliveHeader)
  {
    AsciiConcat("Connection", ": ");
    AsciiConcat("Connection: ", "keep-alive");
    assert "Connection: keep-alive" == "Connection: " + "keep-alive";
  }

  lemma DatePrefixText()
    ensures DatePrefix == CRLF + Ascii("Date") + NameSeparator
  {
    AsciiConcat("Date", ": ");
  }

  /** The cached Date bytes are CR LF followed by the Date header line. */
  lemma DateLine(date: bytes, v: bytes)
    requires DateValue(date) == Some(v)
    ensures date == CRLF + HeaderLine(Header(Ascii("Date"), v))
  {
    DatePrefixText();
  }

  lemma HeaderBlockConcat(a: seq<Header>, b: seq<Header>)
    ensures HeaderBlock(a + b) == HeaderBlock(a) + HeaderBlock(b)
    decreases |a|
  {
    if |a| > 0 {
      assert (a + b)[1..] == a[1..] + b;
      HeaderBlockConcat(a[1..], b);
    } else {
      assert a + b == b;
    }
  }

  lemma HeaderBlockSingle(h: Header)
    ensures HeaderBlock([h]) == HeaderLine(h) + CRLF
  {
    assert HeaderBlock([h]) == HeaderLine(h) + CRLF + HeaderBlock([]);
  }

  lemma CommonHeadersLayout(output: bytes, keepAlive: bool, date: bytes, v: bytes)
    requires DateValue(date) == Some(v)
    ensures output + HeaderServer + date + CRLF + (if keepAlive then HeaderConnectionKeepAlive + CRLF else [])
         == output + HeaderBlock(CommonHeaders(keepAlive, v))
  {
    var tail := if keepAlive then HeaderConnectionKeepAlive + CRLF else [];
    CommonHeadersBlock(keepAlive, date, v);
    Assoc4(output, HeaderServer, date, CRLF, tail);
  }

  lemma CommonHeadersBlock(keepAlive: bool, date: bytes, v: bytes)
    requires DateValue(date) == Some(v)
    ensures HeaderServer + date + CRLF + (if keepAlive then HeaderConnectionKeepAlive + CRLF else [])
         == HeaderBlock(CommonHeaders(keepAlive, v))
  {
    var dateHeader := Header(Ascii("Date"), v);
    var extra: seq<Header> := if keepAlive then [KeepAliveHeader] else [];
    var tail := if keepAlive then HeaderConnectionKeepAlive + CRLF else [];
    assert HeaderBlock(extra) == tail by {
      if keepAlive {
        KeepAliveLineText();
        HeaderBlockSingle(KeepAliveHeader);
      }
    }
    assert CommonHeaders(keepAlive, v) == [ServerHeader] + ([dateHeader] + extra);
    HeaderBlockCons(ServerHeader, [dateHeader] + extra);
    HeaderBlockCons(dateHeader, extra);
    ServerLineText();
    DateLine(date, v);
    ServerDateRegroup(HeaderServer, HeaderLine(dateHeader), tail);
  }

  lemma HeaderBlockCons(h: Header, hs: seq<Header>)
    ensures HeaderBlock([h] + hs) == HeaderLine(h) + CRLF + HeaderBlock(hs)
  {
    assert ([h] + hs)[1..] == hs;
  }

  lemma ServerDateRegroup(server: bytes, dateLine: bytes, tail: bytes)
    ensures server + (CRLF + dateLine) + CRLF + tail == server + CRLF + (dateLine + CRLF + tail)
  {
  }

  lemma Assoc4(a: bytes, b: bytes, c: bytes, d: bytes, e: bytes)
    ensures a + b + c + d + e == a + (b + c + d + e)
  {
  }

  lemma OkLayout(output: bytes, keepAlive: bool, body: bytes, mediaType: MediaType, date: bytes, v: bytes)
    requires DateValue(date) == Some(v)
    ensures WriteHeader(WriteHeader(WriteCommonHeaders(WriteStartLine(output, HttpStatus.Ok), keepAlive, date),
                                    HeaderContentType, mediaType.Value()),
                        HeaderContentLength, Decimal.Format(|body|)) + CRLF + body
         == output + Serialize(OkMessage(keepAlive, v, body, mediaType))
  {
    var m := OkMessage(keepAlive, v, body, mediaType);
    var start := Http11 + HttpStatus.Ok.Value() + CRLF;
    var common := HeaderBlock(CommonHeaders(keepAlive, v));
    var ctLine := HeaderContentType + mediaType.Value() + CRLF;
    var clLine := HeaderContentLength + Decimal.Format(|body|) + CRLF;
    var o1 := WriteStartLine(output, HttpStatus.Ok);
    var o2 := WriteCommonHeaders(o1, keepAlive, date);
    var o3 := WriteHeader(o2, HeaderContentType, mediaType.Value());
    var o4 := WriteHeader(o3, HeaderContentLength, Decimal.Format(|body|));
    assert o1 == output + start by { AppendLine(output, Http11, HttpStatus.Ok.Value()); }
    assert o3 == o2 + ctLine by { AppendLine(o2, HeaderContentType, mediaType.Value()); }
    assert o4 == o3 + clLine by { AppendLine(o3, HeaderContentLength, Decimal.Format(|body|)); }
    assert output + Serialize(m) == output + start + common + ctLine + clLine + CRLF + body by {
      OkHeaderBlock(keepAlive, v, body, mediaType);
      RegroupWithBody(output, start, common, ctLine, clLine, body);
    }
  }

  lemma AppendLine(output: bytes, name: bytes, value: bytes)
    ensures output + name + value + CRLF == output + (name + value + CRLF)
  {
  }

  lemma OkHeaderBlock(keepAlive: bool, v: bytes, body: bytes, mediaType: MediaType)
    ensures HeaderBlock(OkMessage(keepAlive, v, body, mediaType).headers)
         == HeaderBlock(CommonHeaders(keepAlive, v))
            + (HeaderContentType + mediaType.Value() + CRLF)
            + (HeaderContentLength + Decimal.Format(|body|) + CRLF)
  {
    var ct := Header(Ascii("Content-Type"), mediaType.Value());
    var cl := Header(ContentLengthName, Decimal.Format(|body|));
    var ctLine := HeaderContentType + mediaType.Value() + CRLF;
    var clLine := HeaderContentLength + Decimal.Format(|body|) + CRLF;
    HeaderBlockConcat(CommonHeaders(keepAlive, v), [ct, cl]);
    assert HeaderBlock([ct, cl]) == ctLine + clLine by {
      HeaderConstants();
      HeaderBlockPair(ct, cl);
    }
    Assoc(HeaderBlock(CommonHeaders(keepAlive, v)), ctLine, clLine);
  }

  lemma HeaderBlockPair(a: Header, b: Header)
    ensures HeaderBlock([a, b]) == HeaderLine(a) + CRLF + (HeaderLine(b) + CRLF)
  {
    assert [a, b][1..] == [b];
    HeaderBlockSingle(b);
  }

  lemma EmptyLayout(output: bytes, keepAlive: bool, status: HttpStatus, date: bytes, v: bytes)
    requires DateValue(date) == Some(v)
    ensures WriteHeader(WriteCommonHeaders(WriteStartLine(output, status), keepAlive, date),
                        HeaderContentLength, HeaderContentLengthZero) + CRLF
         == output + Serialize(EmptyMessage(status, keepAlive, v))
  {
    var m := EmptyMessage(status, keepAlive, v);
    var start := Http11 + status.Value() + CRLF;
    var common := HeaderBlock(CommonHeaders(keepAlive, v));
    var cl := Header(ContentLengthName, HeaderContentLengthZero);
    var clLine := HeaderContentLength + HeaderContentLengthZero + CRLF;
    var o1 := WriteStartLine(output, status);
    var o2 := WriteCommonHeaders(o1, keepAlive, date);
    var o3 := WriteHeader(o2, HeaderContentLength, HeaderContentLengthZero);
    assert o1 == output + start by { AppendLine(output, Http11, status.Value()); }
    assert o3 == o2 + clLine by { AppendLine(o2, HeaderContentLength, HeaderContentLengthZero); }
    assert HeaderBlock(m.headers) == common + clLine by {
      assert m.headers == CommonHeaders(keepAlive, v) + [cl];
      HeaderBlockConcat(CommonHeaders(keepAlive, v), [cl]);
      HeaderBlockSingle(cl);
      assert HeaderLine(cl) + CRLF == clLine by {
        AsciiConcat("Content-Length", ": ");
      }
    }
    assert output + Serialize(m) == output + start + common + clLine + CRLF by {
      Regroup(output, start, common, clLine, CRLF);
    }
  }

  /** Concatenation regrouped; stated once so the layout proofs stay small. */
  lemma Regroup(a: bytes, b: bytes, c: bytes, d: bytes, e: bytes)
    ensures a + (b + (c + d) + e + []) == a + b + c + d + e
  {
  }

  lemma Assoc(a: bytes, b: bytes, c: bytes)
    ensures a + (b + c) == a + b + c
  {
  }

  lemma RegroupWithBody(a: bytes, b: bytes, c: bytes, d: bytes, e: bytes, body: bytes)
    ensures a + (b + (c + d + e) + CRLF + body) == a + b + c + d + e + CRLF + body
  {
  }

  // What a client reads back.

  /** The status table: code and reason as the status line carries them. */
  lemma StatusValues()
    ensures HttpStatus.Ok.Value() == Ascii("200 OK")
    ensures HttpStatus.BadRequest.Value() == Ascii("400 BAD REQUEST")
    ensures HttpStatus.NotFound.Value() == Ascii("404 NOT FOUND")
  {
    OkValue();
    BadRequestValue();
    NotFoundValue();
  }

  lemma OkValue()
    ensures HttpStatus.Ok.Value() == Ascii("200 OK")
  {
    assert "200" + " OK" == "200 OK";
    StatusValue(HttpStatus.Ok, "200", " OK");
  }

  lemma BadRequestValue()
    ensures HttpStatus.BadRequest.Value() == Ascii("400 BAD REQUEST")
  {
    assert "400" + " BAD REQUEST" == "400 BAD REQUEST";
    StatusValue(HttpStatus.BadRequest, "400", " BAD REQUEST");
  }

  lemma NotFoundValue()
    ensures HttpStatus.NotFound.Value() == Ascii("404 NOT FOUND")
  {
    assert "404" + " NOT FOUND" == "404 NOT FOUND";
    StatusValue(HttpStatus.NotFound, "404", " NOT FOUND");
  }

  lemma StatusValue(status: HttpStatus, code: string, rest: string)
    requires |code| == 3 && Ascii(code) == ThreeDigits(status.Code())
    requires rest == " " + status.Reason()
    ensures status.Value() == Ascii(code + rest)
  {
    FormatThreeDigits(status.Code());
    AsciiStatusText(Decimal.Format(status.Code()), code, rest, status.Reason());
  }

  lemma AsciiStatusText(digits: bytes, code: string, rest: string, reason: string)
    requires digits == Ascii(code)
    requires rest == " " + reason
    ensures digits + Ascii(" ") + Ascii(reason) == Ascii(code + rest)
  {
    AsciiConcat(" ", reason);
    AsciiConcat(code, rest);
  }

  function ThreeDigits(n: nat): bytes
    requires 100 <= n < 1000
  {
    [Decimal.Digit(n / 100), Decimal.Digit(n / 10 % 10), Decimal.Digit(n % 10)]
  }

  lemma FormatThreeDigits(n: nat)
    requires 100 <= n < 1000
    ensures Decimal.Format(n) == ThreeDigits(n)
  {
    assert Decimal.Format(n / 100) == [Decimal.Digit(n / 100)];
    assert Decimal.Format(n / 10) == Decimal.Format(n / 100) + [Decimal.Digit(n / 10 % 10)];
  }

  /** The Connection line is among the common headers exactly when the
      request asked for keep-alive; Server and Date always come first. */
  lemma KeepAliveLine(keepAlive: bool, dateValue: bytes)
    ensures KeepAliveHeader in CommonHeaders(keepAlive, dateValue) <==> keepAlive
    ensures CommonHeaders(keepAlive, dateValue)[0] == ServerHeader
    ensures CommonHeaders(keepAlive, dateValue)[1].name == Ascii("Date")
  {
    var hs := CommonHeaders(keepAlive, dateValue);
    if !keepAlive {
      assert |hs| == 2;
      assert |hs[0].name| != |KeepAliveHeader.name|;
      assert |hs[1].name| != |KeepAliveHeader.name|;
    }
  }

  lemma StatusExcludesCR(status: HttpStatus)
    ensures Excludes(status.Value(), CR)
  {
    Decimal.FormatExcludesCR(status.Code());
    assert Excludes(Ascii(" "), CR);
    assert Excludes(Ascii(status.Reason()), CR) by {
      match status
      case Status200 =>
      case Status400 =>
      case Status404 =>
    }
  }

  lemma CommonHeadersWellFormed(keepAlive: bool, dateValue: bytes)
    requires Excludes(dateValue, CR)
    ensures forall i | 0 <= i < |CommonHeaders(keepAlive, dateValue)| :: WellFormedHeader(CommonHeaders(keepAlive, dateValue)[i])
  {
    var hs := CommonHeaders(keepAlive, dateValue);
    assert WellFormedHeader(hs[0]);
    assert WellFormedHeader(hs[1]);
    assert keepAlive ==> WellFormedHeader(hs[2]);
  }

  /** None of the common headers is a Content-Length header. */
  lemma CommonHeadersNoContentLength(keepAlive: bool, dateValue: bytes)
    ensures forall i | 0 <= i < |CommonHeaders(keepAlive, dateValue)| :: CommonHeaders(keepAlive, dateValue)[i].name != ContentLengthName
    ensures ContentLength(CommonHeaders(keepAlive, dateValue)) == None
  {
    var hs := CommonHeaders(keepAlive, dateValue);
    assert |hs[0].name| != |ContentLengthName|;
    assert |hs[1].name| != |ContentLengthName|;
    assert keepAlive ==> |hs[2].name| != |ContentLengthName|;
  }

  /** Skipping headers without a Content-Length line. */
  lemma ContentLengthAfter(a: seq<Header>, b: seq<Header>)
    requires forall i | 0 <= i < |a| :: a[i].name != ContentLengthName
    ensures ContentLength(a + b) == ContentLength(b)
    decreases |a|
  {
    if |a| > 0 {
      assert (a + b)[1..] == a[1..] + b;
      ContentLengthAfter(a[1..], b);
    } else {
      assert a + b == b;
    }
  }

  /** `Ok` declares the body's length. */
  lemma OkContentLength(keepAlive: bool, dateValue: bytes, body: bytes, mediaType: MediaType)
    ensures ContentLength(OkMessage(keepAlive, dateValue, body, mediaType).headers) == Some(|body|)
  {
    var ct := Header(Ascii("Content-Type"), mediaType.Value());
    var cl := Header(ContentLengthName, Decimal.Format(|body|));
    CommonHeadersNoContentLength(keepAlive, dateValue);
    ContentLengthAfter(CommonHeaders(keepAlive, dateValue), [ct, cl]);
    assert |ct.name| != |ContentLengthName|;
    assert [ct, cl][1..] == [cl];
    Decimal.ParseFormat(|body|);
  }

  /** `NotFound` and `BadRequest` declare an empty body. */
  lemma EmptyContentLength(status: HttpStatus, keepAlive: bool, dateValue: bytes)
    ensures ContentLength(EmptyMessage(status, keepAlive, dateValue).headers) == Some(0)
  {
    var cl := Header(ContentLengthName, HeaderContentLengthZero);
    CommonHeadersNoContentLength(keepAlive, dateValue);
    ContentLengthAfter(CommonHeaders(keepAlive, dateValue), [cl]);
    assert HeaderContentLengthZero == Decimal.Format(0);
    Decimal.ParseFormat(0);
  }

  lemma OkWellFormed(keepAlive: bool, dateValue: bytes, body: bytes, mediaType: MediaType)
    requires Excludes(dateValue, CR)
    ensures WellFormed(OkMessage(keepAlive, dateValue, body, mediaType))
  {
    StatusExcludesCR(HttpStatus.Ok);
    CommonHeadersWellFormed(keepAlive, dateValue);
    Decimal.FormatExcludesCR(|body|);
    assert WellFormedHeader(Header(Ascii("Content-Type"), mediaType.Value()));
    assert WellFormedHeader(Header(ContentLengthName, Decimal.Format(|body|)));
    OkContentLength(keepAlive, dateValue, body, mediaType);
  }

  lemma EmptyWellFormed(status: HttpStatus, keepAlive: bool, dateValue: bytes)
    requires Excludes(dateValue, CR)
    ensures WellFormed(EmptyMessage(status, keepAlive, dateValue))
  {
    StatusExcludesCR(status);
    CommonHeadersWellFormed(keepAlive, dateValue);
    assert WellFormedHeader(Header(ContentLengthName, HeaderContentLengthZero));
    EmptyContentLength(status, keepAlive, dateValue);
  }

  /** The Content-Length `Ok` writes frames its body exactly: a client reads
      back status 200, the body, and leaves the next response untouched. */
  lemma OkRoundTrip(output: bytes, keepAlive: bool, body: bytes, mediaType: MediaType, date: bytes, next: bytes)
    requires DateValue(date).Some?
    ensures var m := OkMessage(keepAlive, DateValue(date).value, body, mediaType);
      && ParseResponse(Ok(output, keepAlive, body, mediaType, date).output[|output|..] + next) == Some((m, next))
      && m.status == Ascii("200 OK")
      && m.body == body
      && ContentLength(m.headers) == Some(|body|)
  {
    var v := DateValue(date).value;
    var m := OkMessage(keepAlive, v, body, mediaType);
    var w := Ok(output, keepAlive, body, mediaType, date);
    assert w.output[|output|..] == Serialize(m);
    OkWellFormed(keepAlive, v, body, mediaType);
    ParseSerialize(m, next);
    StatusValues();
  }

  /** The same for `Json`: the declared length is that of the serializer's output. */
  lemma JsonRoundTrip<T>(output: bytes, keepAlive: bool, value: T, serialize: T -> bytes, date: bytes, next: bytes)
    requires DateValue(date).Some?
    ensures var m := OkMessage(keepAlive, DateValue(date).value, serialize(value), ApplicationJson);
      && ParseResponse(Json(output, keepAlive, value, serialize, date).output[|output|..] + next) == Some((m, next))
      && m.body == serialize(value)
      && ContentLength(m.headers) == Some(|serialize(value)|)
  {
    OkRoundTrip(output, keepAlive, serialize(value), ApplicationJson, date, next);
  }

  /** `NotFound` and `BadRequest` write a response a client reads as the
      reported status with an empty body. */
  lemma EmptyRoundTrip(output: bytes, keepAlive: bool, status: HttpStatus, date: bytes, next: bytes)
    requires DateValue(date).Some?
    ensures var m := EmptyMessage(status, keepAlive, DateValue(date).value);
      && ParseResponse(WriteResponse(output, keepAlive, status, date).output[|output|..] + next) == Some((m, next))
      && m.status == status.Value()
      && m.body == []
      && ContentLength(m.headers) == Some(0)
  {
    var v := DateValue(date).value;
    var m := EmptyMessage(status, keepAlive, v);
    var w := WriteResponse(output, keepAlive, status, date);
    assert w.output[|output|..] == Serialize(m);
    EmptyWellFormed(status, keepAlive, v);
    ParseSerialize(m, next);
  }
}

=== FILE: server.dfy ===
/** The connection loop with the benchmark handler plugged in: what a
    pipelining client reads back from one connection. */
module Server {

  import opened Bytes
  import opened Wrappers
  import opened Message
  import Request
  import Response
  import Benchmark
  import Connection

  /** The handler as the connection invokes it: a fresh output buffer per
      request, and the Date bytes current when the request is served. */
  function BenchmarkHandler(serialize: Benchmark.JsonMessage -> bytes): Connection.Handler {
    (r: Request.Request, date: bytes) => Benchmark.Process(r.httpMethod, r.path, r.keepAlive, [], date, serialize).output
  }

  /** Every served request met Date bytes of the cache's shape. */
  predicate DatesShaped(served: seq<Connection.Served>) {
    forall i | 0 <= i < |served| :: Response.DateValue(served[i].date).Some?
  }

  /** The response each served request should get, in order. */
  function ExpectedAll(served: seq<Connection.Served>, serialize: Benchmark.JsonMessage -> bytes): (ms: seq<Message>)
    requires DatesShaped(served)
    ensures |ms| == |served|
  {
    if |served| == 0 then []
    else
      var r := served[0].request;
      [Benchmark.Expected(Benchmark.Select(r.httpMethod, r.path), r.keepAlive, Response.DateValue(served[0].date).value, serialize)]
        + ExpectedAll(served[1..], serialize)
  }

  /** The flushed bytes of consecutive requests read back as one response
      per request, in request order, none spilling into the next, each with
      the Date current when it was written. */
  lemma {:induction false} ResponsesReadBack(served: seq<Connection.Served>, serialize: Benchmark.JsonMessage -> bytes)
    requires DatesShaped(served)
    ensures ParseAll(Connection.Responses(served, BenchmarkHandler(serialize))) == Some(ExpectedAll(served, serialize))
    decreases |served|
  {
    if |served| > 0 {
      var r := served[0].request;
      var date := served[0].date;
      var h := BenchmarkHandler(serialize);
      var v := Response.DateValue(date).value;
      var first := h(r, date);
      var rest := Connection.Responses(served[1..], h);
      var m := Benchmark.Expected(Benchmark.Select(r.httpMethod, r.path), r.keepAlive, v, serialize);
      assert ParseResponse(first + rest) == Some((m, rest)) by {
        var w := Benchmark.Process(r.httpMethod, r.path, r.keepAlive, [], date, serialize);
        assert first == w.output;
        Benchmark.ProcessRoundTrip(r.httpMethod, r.path, r.keepAlive, [], date, serialize, rest);
        assert w.output[0..] == w.output;
      }
      assert DatesShaped(served[1..]) by {
        assert forall i | 0 <= i < |served| - 1 :: served[1..][i] == served[i + 1];
      }
      ResponsesReadBack(served[1..], serialize);
      ParseAllCons(first + rest, m, rest);
      assert Connection.Responses(served, h) == first + rest;
      assert ExpectedAll(served, serialize) == [m] + ExpectedAll(served[1..], serialize);
    }
  }

  lemma ParseAllCons(s: bytes, m: Message, rest: bytes)
    requires ParseResponse(s) == Some((m, rest))
    requires ParseAll(rest).Some?
    ensures ParseAll(s) == Some([m] + ParseAll(rest).value)
  {
  }

  /** Pipelining: whatever the parser and the transport deliver, everything
      the connection flushes reads back as exactly one response per served
      request, in the order the requests were served, each carrying the
      Date the cache held when it was written. */
  lemma PipelinedResponses(c: Connection.Context, pending: bytes, arrivals: seq<Connection.Arrival>,
                           p: Connection.Parser, serialize: Benchmark.JsonMessage -> bytes)
    requires forall i | 0 <= i < |arrivals| :: Response.DateValue(arrivals[i].date).Some?
    ensures var t := Connection.Run(c, pending, arrivals, p, BenchmarkHandler(serialize));
      DatesShaped(t.served) && ParseAll(t.output) == Some(ExpectedAll(t.served, serialize))
  {
    var t := Connection.Run(c, pending, arrivals, p, BenchmarkHandler(serialize));
    forall i | 0 <= i < |t.served|
      ensures Response.DateValue(t.served[i].date).Some?
    {
      assert t.served[i].date == arrivals[t.served[i].read].date;
    }
    ResponsesReadBack(t.served, serialize);
  }
}

=== FILE: wrappers.dfy ===
/** The two outcome types of the model. Both support Dafny's `:-`, so a
    parse can stop at the first step that fails. */
module Wrappers {

  /** Present or absent: a digit run that does not parse, a response that
      cannot be read back. */
  datatype Option<+T> = None | Some(value: T) {

    predicate IsFailure() {
      None?
    }

    function PropagateFailure<U>(): Option<U>
      requires None?
    {
      None
    }

    function Extract(): T
      requires Some?
    {
      value
    }
  }

  /** A value, or the exception the C# code would throw instead. */
  datatype Result<+R, +E> = Success(value: R) | Failure(error: E) {

    predicate IsFailure() {
      Failure?
    }

    function PropagateFailure<U>(): Result<U, E>
      requires Failure?
    {
      Failure(error)
    }

    function Extract(): R
      requires Success?
    {
      value
    }
  }
}
